=== FILE: README.md ===
# Yonsei election dashboard — a Dafny model of its data core

The dashboard scrapes the university's election page. Each card under a
section marked `진행중` (in progress) becomes one election unit. For each
unit the dashboard:

- cleans the heading into a canonical unit name;
- finds the election commission in charge;
- reads the turnout rate, the voter count, the eligible voters and the
  voters still needed for quorum.

The units are then ordered by a fixed commission list and numbered. Each
refresh is compared with the previous snapshot to show how many voters
were added since. The page shows a summary box and a table split into
complete and incomplete units. It also exports a spreadsheet and a notice
text.

The model covers the pure part of `app.py`:

- the name cleanup;
- the commission fallback;
- the value parsing of the labels;
- the card loop with its early stop;
- the ordering and numbering;
- the snapshot diff;
- the summary figures;
- the view helpers: filter, partition, row colour, countable note, the
  two name-suffix rules and the group order of the notice.

The modules follow that structure:

| module | file | content |
|---|---|---|
| `Wrappers` | wrappers.dfy | `Option`, `Prefer`, `LastKnown` |
| `Seqs` | seqs.dfy | filter/reject, order keeping, distinctness |
| `Text` | text.dfy | Python `in`, `strip()`, `" ".join(s.split())`, `replace(w, "")` on `seq<char>` |
| `Names` | names.dfy | the name cleanup and the commission fallback |
| `NameExamples` | names_examples.dfy | worked headings, among them the counterexample to idempotence |
| `Parsing` | parsing.dfy | `int()`, `f"{n:,}"`, the `(` split, label dispatch |
| `Scrape` | scrape.dfy | the card loop |
| `Ordering` | ordering.dfy | commission rank, stable sort, serial numbers |
| `Diff` | diff.dfy | `process_new_data` |
| `Summary` | summary.dfy | the summary box figures |
| `View` | view.dfy | filter, partition, colours, suffix rules, notice groups |

Two functions the code calls are not visible, and Python's `float()` is
abstracted; all three enter the model as parameters:

- `get_commission` becomes `lookup: string -> string`;
- `is_target_unit` becomes `isTarget: string -> bool`;
- Python's `float()` acceptance test becomes `isFloat: string -> bool`.

The turnout rate is kept as the cleaned text that `float()` accepted.

Some behaviours of the code are easy to miss; the model follows the code:

- **Name cleanup is not idempotent.** `학생학생회회` cleans to `학생회`, and a
  second cleanup empties it. The canonical names of the special rules are
  fixed points. Lemmas: `NameExamples.NormalizeNotIdempotent`,
  `Names.NormalizeKeepsCanonicalNames`.
- **Only the bracketed count deletes `)`.** The eligible and remaining
  values only lose `명` and `,`. A value such as `1,234명)` there is not read
  (`Parsing.BracketedCountUnread`).
- **Unlisted commissions interleave.** Units whose commission is not in the
  list all share the missing category, so they sort by page position
  across different unlisted commissions rather than in groups.
- **`이과대학 학생회` cleans to the empty name.** The college name is itself
  a boilerplate word (`NameExamples.NormalizeCollegeOfScience`).

## Model

| member | source | states |
|---|---|---|
| Names.Normalize | app.py:278 | every canonical name is well spaced: single plain spaces only, none at either end |
| Names.NormalizePriority | app.py:260-278 | the rules apply in their priority order: `총학생회` wins whatever else the name holds, then `총동아리연합회`, then `외국인` (to `외국인 학생회`), then `아동` with `가족`; a `상경·경영대학` name is shortened to the college name unless it mentions `총투표`, in which case only its spacing changes; any other name has the boilerplate words deleted in list order and its spacing collapsed |
| Names.NormalizeKeepsCanonicalNames | app.py:258-278 | each of the five names the special rules produce cleans to itself |
| Names.NormalizeKeepsPlainNames | app.py:258-278 | a name without markers, rule keywords, boilerplate words or irregular spacing cleans to itself |
| Names.StripMarkersChangesIffMatch | app.py:258 | deleting `연세대학교` and `제<digits>대` changes a heading exactly when the pattern matches somewhere in it, and then shortens it |
| Names.MarkerLengthSpec | app.py:258 | a match of the pattern starts at the front exactly when the text begins with `연세대학교` or with `제`, one or more digits and `대`; the match is `연세대학교` itself or that generation marker with its whole digit run |
| Names.StripMarkersFirst | app.py:258 | the first match is deleted, everything before it is kept, and the scan carries on after the match |
| Names.Commission | app.py:280-282 | the commission is the lookup of the clean name unless that lookup is the catch-all `기타/공통`, in which case it is the lookup of the raw heading; the result is the catch-all only when both lookups are |
| NameExamples.NormalizeNotIdempotent | app.py:258-278 | a second cleanup can change a cleaned name: `학생학생회회` cleans to `학생회`, which cleans to the empty name |
| NameExamples.NormalizeCouncilHeading | app.py:258-278 | `연세대학교 제63대 총학생회 선거운동본부` cleans to `총학생회` |
| NameExamples.NormalizeCollegeOfScience | app.py:273-278 | `이과대학 학생회` cleans to the empty name |
| Text.CollapseFixedPoints | app.py:278 | collapsing whitespace leaves a text unchanged exactly when it is already well spaced, so collapsing twice equals collapsing once |
| Text.CollapseKeepsWords | app.py:278 | collapsing whitespace keeps the words of the text and their order |
| Text.WordsOfJoin | app.py:278 | `split()` gives back exactly the words that `" ".join` put together |
| Text.WordsConcat | app.py:278 | `split()` loses only whitespace: its words put together are the text with every whitespace character deleted |
| Text.WordsAtSpace | app.py:278 | `split()` breaks at every whitespace character: the words of a text are the words before any one of its whitespace characters followed by the words after it |
| Text.RemoveChangesIffContains | app.py:275-276 | `replace(w, "")` changes a text exactly when `w` occurs in it, and then shortens it |
| Text.RemoveFirst | app.py:275-276 | `replace(w, "")` deletes the first occurrence of `w`, keeps everything before it, and carries on after it |
| Text.Strip | app.py:258 | `strip()` yields a part of the text with only whitespace cut off around it and no whitespace at either end |
| Parsing.ParseInt | app.py:307 | `int()` succeeds exactly on an optional sign followed by at least one digit |
| Parsing.ParseShowInt | app.py:307 | `int(str(n)) == n` for every integer |
| Parsing.ParseNonCanonical | app.py:307 | `int()` ignores a `+` sign and leading zeros and negates after a `-` sign, so `+5`, `007` and `-0` read as 5, 7 and 0 |
| Parsing.LeadingZeroValue | app.py:307 | a leading zero adds nothing to the value of a digit string |
| Parsing.CountRoundTrip | app.py:305-309 | a count shown as `f"{n:,}명"` reads back as `n`, for every integer `n` |
| Parsing.BracketCountRoundTrip | app.py:297 | the count inside a turnout value shown as `f"{n:,}명)"` reads back as `n` |
| Parsing.ThousandsExample | app.py:307 | `1,234명` reads as 1234 |
| Parsing.Before | app.py:294 | `parts[0]` of `split('(')` is the longest prefix without `(`; it is shorter than the text exactly when the text holds `(` |
| Parsing.BeforeSeparator | app.py:294-297 | splitting `a(b` with `a` free of `(` gives back `a` as the first part and `b` as everything after the separator |
| Parsing.AbsorbOverlays | app.py:290-314 | one label changes the fields only by overwriting them with the values that label yields on its own |
| Parsing.ParseLabelsLastKnown | app.py:286-314 | each field of a card is the value of the last label that yields one, and stays missing when none does |
| Parsing.AloneTurnout | app.py:292-314 | a voter count comes only with a rate; a turnout label yields neither eligible nor remaining voters; eligible voters come only from a non-turnout `총 유권자` label, remaining voters only from a label that is neither |
| Parsing.RateFailureKeepsFields | app.py:293-304 | a turnout value whose rate part does not parse changes nothing, even when its bracketed count would parse |
| Parsing.TurnoutWithCount | app.py:293-299 | a turnout value `rate(N명)` with a parsing rate yields exactly that rate and the count `N` |
| Parsing.EligibleCount | app.py:305-309 | an eligible-voters value `N명` yields exactly the total `N` |
| Parsing.RemainingCount | app.py:310-314 | a quorum or remaining value `N명` yields exactly the remaining count `N` |
| Parsing.UnparsableCountKeeps | app.py:305-314 | a count that does not parse leaves every field as it was |
| Parsing.BracketedCountUnread | app.py:305-314 | outside the turnout bracket `)` is not deleted, so `N명)` does not parse as a count |
| Scrape.ThroughFirst | app.py:325-326 | the units kept form a prefix that ends at the first unit of the given name and includes it; every unit is kept when none has the name |
| Scrape.CollectUnitsReadsQualifying | app.py:251-326 | the loop reads exactly the cards with a heading under an in-progress section, in page order, and stops after the first unit named `외국인 학생회` |
| Scrape.CollectUnitsStopsAtForeignCouncil | app.py:316-326 | the units are a prefix of the qualifying cards' units; `외국인 학생회` appears at most once and then last; without it every qualifying card is read |
| Ordering.Rank | app.py:339 | a commission ranks before the end exactly when the list names it, and then ranks at its place in the list |
| Ordering.IndexIn | app.py:339 | the rank is the first position of the commission in the list, or one past the end exactly when the list does not name it |
| Ordering.OrderUnitsSpec | app.py:330-343 | the ordered rows rearrange the units, each exactly once; the commission ranks never decrease; units of equal rank keep their page order; the serial numbers run 1..n |
| Ordering.SortTagsMultiset | app.py:340 | sorting neither loses nor duplicates a unit |
| Ordering.SortTagsSorted | app.py:340 | the sort result is ordered by (commission rank, page position) |
| Diff.LastVoted | app.py:360 | a name is missing from the old snapshot's name-to-count map exactly when no old row carries it |
| Diff.LastVotedIsLast | app.py:360 | when several old rows share a name, the map holds the count of the last of them |
| Diff.ProcessNewData | app.py:356-376 | the diff keeps every new row, in place, and only adds its growth |
| Diff.GrowthSpec | app.py:360-370 | the growth is `curr - prev` when both counts are known and 0 otherwise, where `prev` is the count of the last old row of the same name; a falling count gives negative growth |
| Diff.GrowthWithoutMatch | app.py:356-376 | without a usable previous snapshot, or when the name is new, the growth is 0 |
| Diff.SelfDiffIsZero | app.py:356-376 | diffing a snapshot with distinct names against itself gives zero growth everywhere |
| Summary.GroupsPartition | app.py:151-158 | each unit falls into exactly one of the groups total council, college level and department |
| Summary.GrowthSplits | app.py:149-158 | the three growth figures add up to the growth of the whole table |
| Summary.Clamped | app.py:163-169 | an unknown or negative remaining count counts as 0, any other as itself |
| Summary.RemTotal | app.py:161-166 | without a total council row the remaining figure is 0 |
| Summary.RemTotalFirst | app.py:161-164 | the total council figure is read from its first row only |
| Summary.RemTargetSumCovers | app.py:167-169 | the target sum is at least the clamped remaining count of any single target row |
| Summary.RemTargetSumZero | app.py:167-169 | the target sum is 0 exactly when no target unit has voters left |
| Summary.RemTargetSumAppend | app.py:169 | the target sum of two tables put together is the sum of their target sums |
| Summary.RemTargetSumSingle | app.py:169 | a single row contributes its clamped remaining count when it is a target unit and nothing otherwise |
| Summary.ValueBounds | app.py:160-170 | the shown figure never exceeds the total council's remaining voters, equals it exactly when no target unit has voters left, is bounded below by minus the target sum, and is negative exactly when the target sum exceeds the total council's figure |
| View.FilterByCommission | app.py:477-480 | an empty selection shows the table as it is; the shown and the hidden rows together hold each row of the table exactly as often as the table does; the shown rows keep their table order, since merging them back with the hidden rows along the selection rebuilds the table |
| View.FilterByCommissionMembers | app.py:477-480 | a row is shown exactly when it is in the table and the selection is empty or names its commission |
| View.PartitionSpec | app.py:482-484 | the complete and the incomplete rows split the shown rows: each row lands on exactly one side, and interleaving the sides back gives the shown rows |
| View.PartitionKeepsSerialOrder | app.py:477-487 | rows in serial order stay in serial order through the filter and the split, so the default sort by serial number changes nothing |
| View.ClassifySpec | app.py:393-398 | success exactly when the remaining count is known and at most 0; warning exactly when voters are left, the voter count is positive and the remaining count is at most a fifth of it; the `(개표 가능)` note marks exactly the success rows |
| View.ExportNameSpec | app.py:506-510 | the export name is the name or the name with ` 학생회`; it is unchanged exactly when the name ends in `학생회` or holds a keep word; applying it twice equals applying it once |
| View.NoticeNameSpec | app.py:545-549 | the notice name is the name or the name with ` 학생회`; it is unchanged exactly when the name holds a keep word; applying it twice equals applying it once |
| View.ExportKeptNoticeKept | app.py:506-549 | a name the export leaves alone is left alone in the notice too |
| View.ExportAddsWhereNoticeKeeps | app.py:506-549 | the converse fails: `학생회장` keeps its name in the notice but gets the suffix in the export |
| View.Unique | app.py:532 | `unique()` gives the same values without repetition, in the order of their first appearance |
| View.GroupOrderSpec | app.py:532-535 | the notice group order holds each found commission exactly once; it splits into the found commissions the list names, in list order, followed by exactly the found commissions it does not name, in the order they were found |
| View.CommissionOrderDistinct | app.py:525-531 | the commission list names no commission twice |
| View.NoticeGroupsCoverRows | app.py:532-552 | read group after group, the notice lists every row of the complete table exactly once, and no other row |
| View.NoticeGroupsNonEmpty | app.py:537-539 | every commission in the group order has at least one row, so the empty-group skip never fires |

## Left out

- Selenium and BeautifulSoup (app.py:199-256, 345-354) are not modelled. A
  page is modelled as a sequence of cards. Each card has an optional
  heading, an optional section heading and its labels as (text, optional
  value) pairs, with the text already extracted.
- `get_commission`, `is_target_unit` and `TARGET_UNITS` come from
  `mapping_db`, which is not part of this model. They are parameters.
- Floating point is not modelled. This covers the turnout rate, its `float()`
  parse, and the `.2f` formatting in the table, the export and the notice.
  The rate stays the opaque text `float()` accepted.
- The user-chosen sort orders other than the default (app.py:486-497) are not
  modelled. Only the default order by serial number is (`View.PartitionKeepsSerialOrder`).
- Streamlit session state, refresh buttons, timers, timestamps, the HTML
  table text, the CSV encoding and the notice string are not modelled. Their
  inputs are: the row class, the note, the names and the group order.
- Pandas empty-frame handling is not modelled. An empty frame takes the same
  path as an empty sequence. The summary's test for the growth column is
  always met, because the diff always adds the column.
- Names.MarkerLength: the `\d` of the marker pattern is modelled as the ASCII
  digits `0`-`9`. Python's `re` also matches other Unicode decimal digits, so
  the code deletes a marker such as `제６３대` (full-width digits) and the model
  keeps it.
- Names.StripMarkersChangesIffMatch: states the change-iff-match property for
  the ASCII-digit pattern of `Names.MarkerLength`, not for markers written
  with other Unicode decimal digits.
- Parsing.ParseInt: Python's `int()` also accepts underscores between
  digits, non-ASCII decimal digits and surrounding whitespace. The model
  accepts an optional sign and ASCII digits only. The callers strip
  whitespace before calling it.
- View.Classify: the code compares `remaining <= voted * 0.2` in floating
  point. The model uses `5 * remaining <= voted`. The two agree for counts
  far below 2^50.
- Wrappers.LastKnown and Seqs are generic helpers. They stand for no line of
  the code.

=== FILE: diff.dfy ===
/** The growth column: how many more voters each unit has than in the
    snapshot shown before the refresh. */
module Diff {
  import opened Wrappers
  import opened Parsing
  import opened Scrape
  import opened Ordering

  /** A row of the dashboard table, with its growth since the previous snapshot. */
  datatype Record = Record(row: Row, growth: int)

  /** The table shown before the refresh, and whether it carries the unit
      name and voter count columns. */
  datatype Previous = Previous(records: seq<Record>, hasColumns: bool)

  function NameOf(r: Record): string { r.row.unit.name }

  function VotedOf(r: Record): Option<int> { r.row.unit.fields.voted }

  /** The voter count a name maps to in the previous table, where a later row
      of the same name overwrites an earlier one; the outer `None` means the
      name is not there at all. */
  function LastVoted(records: seq<Record>, name: string): (r: Option<Option<int>>)
    ensures r.None? <==> forall k :: 0 <= k < |records| ==> NameOf(records[k]) != name
  {
    if |records| == 0 then None
    else
      var last := records[|records| - 1];
      if NameOf(last) == name then Some(VotedOf(last))
      else
        var r := LastVoted(records[..|records| - 1], name);
        assert forall k :: 0 <= k < |records| - 1 ==> records[..|records| - 1][k] == records[k];
        r
  }

  /** The growth of one unit: the difference of two known counts, and 0 when
      either count is unknown. */
  function Growth(curr: Option<int>, prev: Option<Option<int>>): int {
    if curr.Some? && prev.Some? && prev.value.Some? then curr.value - prev.value.value else 0
  }

  /** The rows of a fresh table with their growth against the previous one. */
  function ProcessNewData(rows: seq<Row>, previous: Option<Previous>): (r: seq<Record>)
    ensures |r| == |rows|
    ensures forall i :: 0 <= i < |rows| ==> r[i].row == rows[i]
  {
    if previous.None? || |previous.value.records| == 0 || !previous.value.hasColumns then
      seq(|rows|, i requires 0 <= i < |rows| => Record(rows[i], 0))
    else
      seq(|rows|, i requires 0 <= i < |rows| =>
        Record(rows[i], Growth(rows[i].unit.fields.voted, LastVoted(previous.value.records, rows[i].unit.name))))
  }

  /** `LastVoted` finds the last row of the name and nothing else. */
  lemma {:induction false} LastVotedIsLast(records: seq<Record>, name: string, k: nat)
    requires k < |records| && NameOf(records[k]) == name
    requires forall m :: k < m < |records| ==> NameOf(records[m]) != name
    ensures LastVoted(records, name) == Some(VotedOf(records[k]))
    decreases |records|
  {
    if k < |records| - 1 {
      var init := records[..|records| - 1];
      LastVotedIsLast(init, name, k);
    }
  }

  /** A unit gets growth `curr - prev` exactly when its current count is known,
      the previous table is there with its columns, and the last row of the
      same name there has a known count `prev`; every other unit gets 0.
      Nothing is clamped, so a falling count gives negative growth. */
  lemma GrowthSpec(rows: seq<Row>, previous: Option<Previous>, i: nat, k: nat)
    requires i < |rows|
    requires previous.Some? && previous.value.hasColumns
    requires k < |previous.value.records| && NameOf(previous.value.records[k]) == rows[i].unit.name
    requires forall m :: k < m < |previous.value.records| ==>
               NameOf(previous.value.records[m]) != rows[i].unit.name
    ensures var curr, prev := rows[i].unit.fields.voted, VotedOf(previous.value.records[k]);
            ProcessNewData(rows, previous)[i].growth ==
              if curr.Some? && prev.Some? then curr.value - prev.value else 0
  {
    LastVotedIsLast(previous.value.records, rows[i].unit.name, k);
  }

  /** A unit whose name the previous table lacks, or any unit when there is no
      usable previous table, gets growth 0. */
  lemma GrowthWithoutMatch(rows: seq<Row>, previous: Option<Previous>, i: nat)
    requires i < |rows|
    requires previous.None? || !previous.value.hasColumns ||
             forall m :: 0 <= m < |previous.value.records| ==>
               NameOf(previous.value.records[m]) != rows[i].unit.name
    ensures ProcessNewData(rows, previous)[i].growth == 0
  {
  }

  /** Refreshing onto the same table, whose unit names are all different,
      shows no growth anywhere. */
  lemma SelfDiffIsZero(records: seq<Record>, hasColumns: bool)
    requires forall a, b :: 0 <= a < b < |records| ==> NameOf(records[a]) != NameOf(records[b])
    ensures var rows := seq(|records|, i requires 0 <= i < |records| => records[i].row);
            forall i :: 0 <= i < |rows| ==> ProcessNewData(rows, Some(Previous(records, hasColumns)))[i].growth == 0
  {
    var rows := seq(|records|, i requires 0 <= i < |records| => records[i].row);
    forall i | 0 <= i < |rows|
      ensures ProcessNewData(rows, Some(Previous(records, hasColumns)))[i].growth == 0
    {
      if hasColumns {
        LastVotedIsLast(records, NameOf(records[i]), i);
      }
    }
  }
}

=== FILE: names.dfy ===
/** Canonical unit names: the cleanup `get_data_from_server` applies to each
    card heading before the unit is classified and stored, and the fallback
    rule for finding the unit's commission. */
module Names {
  import opened Text

  const Institution := "연세대학교"
  const TotalCouncil := "총학생회"
  const ClubUnion := "총동아리연합회"
  const ForeignKeyword := "외국인"
  const ForeignCouncil := "외국인 학생회"
  const ChildKeyword := "아동"
  const FamilyKeyword := "가족"
  const ChildFamilyDept := "아동가족학과"
  const BusinessCollege := "상경·경영대학"
  const GeneralVote := "총투표"

  /** The boilerplate words deleted, in this order, from names no special rule claims. */
  const Boilerplate: seq<string> :=
    ["이과대학", "2026년도", "2026학년도", "선거운동본부", "학생회 선거", "학생회", "선거"]

  /** The catch-all commission the lookup answers when nothing matches. */
  const OtherCommission := "기타/공통"

  /** The length of the run of digits `s` starts with. */
  function DigitRun(s: string): (n: nat)
    ensures n <= |s|
    ensures forall k :: 0 <= k < n ==> IsDigit(s[k])
    ensures n < |s| ==> !IsDigit(s[n])
  {
    if |s| > 0 && IsDigit(s[0]) then 1 + DigitRun(s[1..]) else 0
  }

  /** The length of the match of the pattern `연세대학교|제\d+대` at the start
      of `s`, or 0 when it does not match there. Greedy `\d+` can only be
      followed by `대` at the end of the whole digit run, so backtracking
      never finds a shorter match. */
  function MarkerLength(s: string): (n: nat)
    ensures n <= |s|
    ensures n == 0 || n == |Institution| || (n >= 3 && s[0] == '제' && s[n - 1] == '대')
    ensures n > 0 ==> s[0] == '연' || s[0] == '제'
  {
    if StartsWith(s, Institution) then |Institution|
    else if |s| > 0 && s[0] == '제' then
      var d := DigitRun(s[1..]);
      if d > 0 && d + 1 < |s| && s[d + 1] == '대' then d + 2 else 0
    else 0
  }

  /** `s` starts with `제`, `k` digits and `대`: a generation marker. */
  predicate GenerationAt(s: string, k: int) {
    1 <= k && k + 1 < |s| && s[0] == '제'
    && (forall j :: 1 <= j <= k ==> IsDigit(s[j])) && s[k + 1] == '대'
  }

  /** The pattern matches at the front of `s` exactly when `s` starts with the
      institution name or with a generation marker, and the match is that
      whole text: the institution name, or `제`, all `k` digits and `대`. */
  lemma MarkerLengthSpec(s: string)
    ensures MarkerLength(s) > 0 <==> StartsWith(s, Institution) || exists k :: GenerationAt(s, k)
    ensures StartsWith(s, Institution) ==> MarkerLength(s) == |Institution|
    ensures forall k :: GenerationAt(s, k) ==> MarkerLength(s) == k + 2
  {
    if |s| > 0 && s[0] == '제' {
      var t := s[1..];
      var d := DigitRun(t);
      assert !StartsWith(s, Institution) by {
        assert Institution[0] == '연';
      }
      forall k | GenerationAt(s, k) ensures MarkerLength(s) == k + 2 {
        DigitRunExact(t, k);
      }
      if MarkerLength(s) > 0 {
        assert GenerationAt(s, d) by {
          forall j | 1 <= j <= d ensures IsDigit(s[j]) {
            assert s[j] == t[j - 1];
          }
        }
      }
    }
  }

  /** A run of exactly `k` digits, followed by a non-digit. */
  lemma {:induction false} DigitRunExact(t: string, k: nat)
    requires k < |t| && !IsDigit(t[k]) && forall j :: 0 <= j < k ==> IsDigit(t[j])
    ensures DigitRun(t) == k
    decreases k
  {
    if k > 0 {
      DigitRunExact(t[1..], k - 1);
    }
  }

  /** Some match of the marker pattern starts at a position of `s`. */
  predicate HasMarker(s: string) {
    exists i :: 0 <= i < |s| && MarkerLength(s[i..]) > 0
  }

  /** `re.sub(r"연세대학교|제\d+대", "", s)`: scanning left to right, every
      non-overlapping match is deleted. */
  function StripMarkers(s: string): (r: string)
    ensures |r| <= |s|
    decreases |s|
  {
    if |s| == 0 then []
    else
      var m := MarkerLength(s);
      if m > 0 then StripMarkers(s[m..]) else [s[0]] + StripMarkers(s[1..])
  }

  /** The substitution changes a name exactly when the pattern matches
      somewhere in it, and then the name gets strictly shorter. */
  lemma {:induction false} StripMarkersChangesIffMatch(s: string)
    ensures StripMarkers(s) == s <==> !HasMarker(s)
    ensures HasMarker(s) ==> |StripMarkers(s)| < |s|
    decreases |s|
  {
    if |s| > 0 {
      if MarkerLength(s) == 0 {
        StripMarkersChangesIffMatch(s[1..]);
        ChangesIffMatchKeep(s, s[1..]);
      } else {
        ChangesIffMatchAtFront(s);
      }
    }
  }

  /** `StripMarkersChangesIffMatch` when the first character is kept. */
  lemma ChangesIffMatchKeep(s: string, t: string)
    requires |s| > 0 && MarkerLength(s) == 0 && t == s[1..]
    requires StripMarkers(t) == t <==> !HasMarker(t)
    requires HasMarker(t) ==> |StripMarkers(t)| < |t|
    ensures StripMarkers(s) == s <==> !HasMarker(s)
    ensures HasMarker(s) ==> |StripMarkers(s)| < |s|
  {
    StripSkip(s);
    HasMarkerLater(s);
    ConsChanges(s, t, s[0], StripMarkers(s), StripMarkers(t), HasMarker(s), HasMarker(t));
  }

  /** Putting the same character in front of a text and its result keeps
      "unchanged exactly when `found` is false" and "shorter when found". */
  lemma ConsChanges(s: string, t: string, c: char, x: string, y: string, found: bool, foundInTail: bool)
    requires |s| > 0 && c == s[0] && t == s[1..] && x == [c] + y && found == foundInTail
    requires y == t <==> !foundInTail
    requires foundInTail ==> |y| < |t|
    ensures x == s <==> !found
    ensures found ==> |x| < |s|
  {
    assert s == [c] + t;
    if x == s {
      assert x[1..] == y;
    }
  }

  /** `StripMarkersChangesIffMatch` when a match starts at the front. */
  lemma ChangesIffMatchAtFront(s: string)
    requires |s| > 0 && MarkerLength(s) > 0
    ensures StripMarkers(s) != s && HasMarker(s) && |StripMarkers(s)| < |s|
  {
    assert s[0..] == s;
  }

  /** The first match is deleted and everything before it kept; the scan
      then carries on after it. With `StripMarkersChangesIffMatch` this fixes
      the result: only the matches go. `m` is the length of the match at
      `i`, and `rest` what follows it. */
  lemma {:induction false} StripMarkersFirst(s: string, i: nat, m: nat, rest: string)
    requires i < |s| && m == MarkerLength(s[i..]) > 0 && rest == s[i + m..]
    requires forall j :: 0 <= j < i ==> MarkerLength(s[j..]) == 0
    ensures StripMarkers(s) == s[..i] + StripMarkers(rest)
    decreases i
  {
    if i == 0 {
      StripMatchAt(s, i, m, rest);
    } else {
      var tail := s[1..];
      NoMarkerInTail(s, i);
      TailPieces(s, i, m);
      StripMarkersFirst(tail, i - 1, m, rest);
      assert MarkerLength(s[0..]) == 0;
      StripKeepFront(s, tail, i, StripMarkers(rest));
    }
  }

  /** The character in front of the first match is kept in front of the tail's result. */
  lemma StripKeepFront(s: string, tail: string, i: nat, x: string)
    requires 0 < i < |s| && tail == s[1..] && MarkerLength(s[0..]) == 0
    requires StripMarkers(tail) == tail[..i - 1] + x
    ensures StripMarkers(s) == s[..i] + x
  {
    StripKeep(s);
    TailPieces(s, i, 0);
    ConsRegroup(StripMarkers(s), s[0], StripMarkers(tail), tail[..i - 1], x, s[..i]);
  }

  /** A match at the front is deleted. */
  lemma StripMatchAt(s: string, i: nat, m: nat, rest: string)
    requires i == 0 < |s| && m == MarkerLength(s[i..]) > 0 && rest == s[i + m..]
    ensures StripMarkers(s) == s[..i] + StripMarkers(rest)
  {
    FrontSlices(s, i, m);
    StripMatch(s, m, rest);
  }

  /** A match of length `m` at the very front is deleted. */
  lemma StripMatch(s: string, m: nat, rest: string)
    requires |s| > 0 && m == MarkerLength(s) > 0 && rest == s[m..]
    ensures StripMarkers(s) == StripMarkers(rest)
  {
  }

  /** The slices at position 0. */
  lemma FrontSlices(s: string, i: nat, m: nat)
    requires i == 0 && m <= |s|
    ensures s[i..] == s && s[..i] == [] && s[i + m..] == s[m..]
  {
  }

  /** A character where no match starts is kept. */
  lemma StripKeep(s: string)
    requires |s| > 0 && MarkerLength(s[0..]) == 0
    ensures StripMarkers(s) == [s[0]] + StripMarkers(s[1..])
  {
    FrontSlices(s, 0, 0);
    StripSkip(s);
  }

  /** `StripKeep` once the slice is the whole text. */
  lemma StripSkip(s: string)
    requires |s| > 0 && MarkerLength(s) == 0
    ensures StripMarkers(s) == [s[0]] + StripMarkers(s[1..])
  {
  }

  /** No match before position `i` means none before `i - 1` in the tail. */
  lemma NoMarkerInTail(s: string, i: nat)
    requires 0 < i <= |s|
    requires forall j :: 0 <= j < i ==> MarkerLength(s[j..]) == 0
    ensures forall j :: 0 <= j < i - 1 ==> MarkerLength(s[1..][j..]) == 0
  {
    forall j | 0 <= j < i - 1 ensures MarkerLength(s[1..][j..]) == 0 {
      assert s[1..][j..] == s[j + 1..];
    }
  }

  /** Where no match starts at the front, a match is one in the tail. */
  lemma HasMarkerLater(s: string)
    requires |s| > 0 && MarkerLength(s) == 0
    ensures HasMarker(s) <==> HasMarker(s[1..])
  {
    if HasMarker(s) {
      var i :| 0 <= i < |s| && MarkerLength(s[i..]) > 0;
      assert i > 0;
      assert s[1..][i - 1..] == s[i..];
    }
    if HasMarker(s[1..]) {
      var i :| 0 <= i < |s| - 1 && MarkerLength(s[1..][i..]) > 0;
      assert s[1..][i..] == s[i + 1..];
    }
  }

  /** Deletes every word of `words`, one word after the other, each with `replace`. */
  function RemoveAll(s: string, words: seq<string>): (r: string)
    requires forall k :: 0 <= k < |words| ==> |words[k]| > 0
    ensures |r| <= |s|
    decreases |words|
  {
    if |words| == 0 then s else RemoveAll(Remove(s, words[0]), words[1..])
  }

  /** Deleting a list of words is deleting its first `k` words and then the rest. */
  lemma {:induction false} RemoveAllSplit(s: string, words: seq<string>, k: nat)
    requires forall j :: 0 <= j < |words| ==> |words[j]| > 0
    requires k <= |words|
    ensures RemoveAll(s, words) == RemoveAll(RemoveAll(s, words[..k]), words[k..])
    decreases k
  {
    if k > 0 {
      RemoveAllSplit(Remove(s, words[0]), words[1..], k - 1);
      assert words[1..][..k - 1] == words[..k][1..];
      assert words[1..][k - 1..] == words[k..];
    }
  }

  /** A name holding none of the words comes through the deletions unchanged. */
  lemma {:induction false} RemoveAllAbsent(s: string, words: seq<string>)
    requires forall k :: 0 <= k < |words| ==> |words[k]| > 0
    requires forall k :: 0 <= k < |words| ==> !Contains(s, words[k])
    ensures RemoveAll(s, words) == s
  {
    if |words| > 0 {
      RemoveChangesIffContains(s, words[0]);
      RemoveAllAbsent(s, words[1..]);
    }
  }

  /** When only the word at position `i` occurs -- the earlier ones in the
      name, the later ones in what its deletion leaves -- the deletions
      amount to deleting that one word. */
  lemma RemoveAllOnly(s: string, words: seq<string>, i: nat, r: string)
    requires forall k :: 0 <= k < |words| ==> |words[k]| > 0
    requires i < |words|
    requires forall k :: 0 <= k < i ==> !Contains(s, words[k])
    requires Remove(s, words[i]) == r
    requires forall k :: i < k < |words| ==> !Contains(r, words[k])
    ensures RemoveAll(s, words) == r
  {
    RemoveAllSplit(s, words, i);
    forall k | 0 <= k < i ensures !Contains(s, words[..i][k]) {
      assert words[..i][k] == words[k];
    }
    RemoveAllAbsent(s, words[..i]);
    var later := words[i + 1..];
    assert words[i..][1..] == later;
    forall k | 0 <= k < |later| ensures !Contains(r, later[k]) {
      assert later[k] == words[i + 1 + k];
    }
    RemoveAllAbsent(r, later);
  }

  /** The fallback for names no special rule claims: the boilerplate words
      deleted one after the other. */
  function DropBoilerplate(c: string): string {
    RemoveAll(c, Boilerplate)
  }

  /** The special-case cascade applied to a heading after its markers are
      gone: the first rule whose keywords the name holds decides. */
  function Rewrite(c: string): string
  {
    if Contains(c, TotalCouncil) then TotalCouncil
    else if Contains(c, ClubUnion) then ClubUnion
    else if Contains(c, ForeignKeyword) then ForeignCouncil
    else if Contains(c, ChildKeyword) && Contains(c, FamilyKeyword) then ChildFamilyDept
    else if Contains(c, BusinessCollege) then
      (if Contains(c, GeneralVote) then c else BusinessCollege)
    else DropBoilerplate(c)
  }

  /** The heading after marker removal and `strip()`, the text every rule inspects. */
  function Cleaned(raw: string): string {
    Strip(StripMarkers(raw))
  }

  /** The names the special rules produce are well spaced. */
  lemma CanonicalNamesWellSpaced()
    ensures WellSpaced(TotalCouncil) && WellSpaced(ClubUnion) && WellSpaced(ForeignCouncil)
    ensures WellSpaced(ChildFamilyDept) && WellSpaced(BusinessCollege)
  {
    forall n | n in [TotalCouncil, ClubUnion, ChildFamilyDept, BusinessCollege]
      ensures WellSpaced(n)
    {
      forall k | 0 <= k < |n| ensures !IsSpace(n[k]) {
      }
    }
    forall k | 0 <= k < |ForeignCouncil| && k != 3 ensures !IsSpace(ForeignCouncil[k]) {
    }
  }

  /** The canonical unit name of a card heading: cleaned, rewritten, and with
      its whitespace collapsed. */
  function Normalize(raw: string): (r: string)
    ensures WellSpaced(r)
  {
    Collapse(Rewrite(Cleaned(raw)))
  }

  /** The rules are tried in a fixed priority: a name holding `총학생회`
      becomes exactly that whatever else it holds, then `총동아리연합회`,
      then `외국인` (to `외국인 학생회`), then `아동` with `가족` (to
      `아동가족학과`); a `상경·경영대학` name is shortened to the college
      name unless it mentions `총투표`, in which case only its spacing changes;
      any other name loses its boilerplate words and has its spacing collapsed. */
  lemma NormalizePriority(raw: string)
    ensures var c, r := Cleaned(raw), Normalize(raw);
      && (Contains(c, TotalCouncil) ==> r == TotalCouncil)
      && (!Contains(c, TotalCouncil) && Contains(c, ClubUnion) ==> r == ClubUnion)
      && (!Contains(c, TotalCouncil) && !Contains(c, ClubUnion) && Contains(c, ForeignKeyword)
          ==> r == ForeignCouncil)
      && ((!Contains(c, TotalCouncil) && !Contains(c, ClubUnion) && !Contains(c, ForeignKeyword)
           && Contains(c, ChildKeyword) && Contains(c, FamilyKeyword)) ==> r == ChildFamilyDept)
      && ((!Contains(c, TotalCouncil) && !Contains(c, ClubUnion) && !Contains(c, ForeignKeyword)
           && !(Contains(c, ChildKeyword) && Contains(c, FamilyKeyword))
           && Contains(c, BusinessCollege))
          ==> r == (if Contains(c, GeneralVote) then Collapse(c) else BusinessCollege))
      && ((!Contains(c, TotalCouncil) && !Contains(c, ClubUnion) && !Contains(c, ForeignKeyword)
           && !(Contains(c, ChildKeyword) && Contains(c, FamilyKeyword))
           && !Contains(c, BusinessCollege))
          ==> r == Collapse(DropBoilerplate(c)))
  {
    CanonicalNamesWellSpaced();
    var w := Rewrite(Cleaned(raw));
    if w in {TotalCouncil, ClubUnion, ForeignCouncil, ChildFamilyDept, BusinessCollege} {
      CollapseKeepsWellSpaced(w);
    }
  }

  /** A name without `제` and without the institution name holds no marker. */
  lemma NoMarkerWithoutLeadChars(s: string)
    requires '제' !in s && !Contains(s, Institution)
    ensures !HasMarker(s)
  {
    ContainsIffOccurs(s, Institution);
    forall i | 0 <= i < |s| ensures MarkerLength(s[i..]) == 0 {
      StartsWithOccurs(s, Institution, i);
    }
  }

  /** A canonical name holds no marker and no whitespace margin, so the
      rules see it as it is. */
  lemma CanonicalNameCleaned(n: string)
    requires n in {TotalCouncil, ClubUnion, ForeignCouncil, ChildFamilyDept, BusinessCollege}
    ensures Cleaned(n) == n
  {
    CanonicalNamesWellSpaced();
    assert '세' !in n && '제' !in n;
    assert !IsSpace(n[0]) && !IsSpace(n[|n| - 1]);
    CleanedUnmarked(n);
  }

  /** A heading without `제`, without `세` and without whitespace margins is
      already clean. */
  lemma CleanedUnmarked(s: string)
    requires '제' !in s && '세' !in s
    requires s == [] || (!IsSpace(s[0]) && !IsSpace(s[|s| - 1]))
    ensures Cleaned(s) == s
  {
    MissingCharNotContained(s, Institution, '세');
    NoMarkerWithoutLeadChars(s);
    StripMarkersChangesIffMatch(s);
  }

  /** The characters that tell the canonical names apart from the keywords. */
  lemma CanonicalNameChars()
    ensures '생' !in ClubUnion
    ensures '총' !in ForeignCouncil && '총' !in ChildFamilyDept && '총' !in BusinessCollege
    ensures '외' !in ChildFamilyDept && '외' !in BusinessCollege
    ensures '아' !in BusinessCollege
  {
  }

  /** `총학생회` is claimed by the first rule, which maps it to itself. */
  lemma RewriteKeepsTotalCouncil()
    ensures Rewrite(TotalCouncil) == TotalCouncil
  {
    assert StartsWith(TotalCouncil, TotalCouncil);
  }

  /** `총동아리연합회` escapes the first rule and is kept by the second. */
  lemma RewriteKeepsClubUnion()
    ensures Rewrite(ClubUnion) == ClubUnion
  {
    CanonicalNameChars();
    MissingCharNotContained(ClubUnion, TotalCouncil, '생');
    assert StartsWith(ClubUnion, ClubUnion);
  }

  /** `외국인 학생회` escapes the first two rules and is kept by the third. */
  lemma RewriteKeepsForeignCouncil()
    ensures Rewrite(ForeignCouncil) == ForeignCouncil
  {
    CanonicalNameChars();
    MissingCharNotContained(ForeignCouncil, TotalCouncil, '총');
    MissingCharNotContained(ForeignCouncil, ClubUnion, '총');
    assert StartsWith(ForeignCouncil, ForeignKeyword);
  }

  /** `아동가족학과` escapes the first three rules and is kept by the fourth. */
  lemma RewriteKeepsChildFamilyDept()
    ensures Rewrite(ChildFamilyDept) == ChildFamilyDept
  {
    var n := ChildFamilyDept;
    CanonicalNameChars();
    MissingCharNotContained(n, TotalCouncil, '총');
    MissingCharNotContained(n, ClubUnion, '총');
    MissingCharNotContained(n, ForeignKeyword, '외');
    assert StartsWith(n, ChildKeyword);
    assert StartsWith(n[2..], FamilyKeyword);
    assert Contains(n[1..], FamilyKeyword);
  }

  /** `상경·경영대학` escapes the first four rules and is kept by the fifth. */
  lemma RewriteKeepsBusinessCollege()
    ensures Rewrite(BusinessCollege) == BusinessCollege
  {
    var n := BusinessCollege;
    CanonicalNameChars();
    MissingCharNotContained(n, TotalCouncil, '총');
    MissingCharNotContained(n, ClubUnion, '총');
    MissingCharNotContained(n, ForeignKeyword, '외');
    MissingCharNotContained(n, ChildKeyword, '아');
    assert StartsWith(n, BusinessCollege);
  }

  /** A canonical name the special rules produce normalises to itself. */
  lemma NormalizeKeepsCanonicalNames(n: string)
    requires n in {TotalCouncil, ClubUnion, ForeignCouncil, ChildFamilyDept, BusinessCollege}
    ensures Normalize(n) == n
  {
    CanonicalNameCleaned(n);
    if n == TotalCouncil {
      RewriteKeepsTotalCouncil();
    } else if n == ClubUnion {
      RewriteKeepsClubUnion();
    } else if n == ForeignCouncil {
      RewriteKeepsForeignCouncil();
    } else if n == ChildFamilyDept {
      RewriteKeepsChildFamilyDept();
    } else {
      RewriteKeepsBusinessCollege();
    }
    CanonicalNamesWellSpaced();
    CollapseKeepsWellSpaced(n);
  }

  /** A name that is already clean -- no marker, no keyword of any rule, no
      boilerplate word, single spaces only -- normalises to itself. */
  lemma NormalizeKeepsPlainNames(n: string)
    requires !HasMarker(n) && WellSpaced(n)
    requires !Contains(n, TotalCouncil) && !Contains(n, ClubUnion) && !Contains(n, ForeignKeyword)
    requires !(Contains(n, ChildKeyword) && Contains(n, FamilyKeyword))
    requires !Contains(n, BusinessCollege)
    requires forall k :: 0 <= k < |Boilerplate| ==> !Contains(n, Boilerplate[k])
    ensures Normalize(n) == n
  {
    StripMarkersChangesIffMatch(n);
    assert Strip(n) == n;
    RemoveAllAbsent(n, Boilerplate);
    CollapseKeepsWellSpaced(n);
  }

  /** The commission of a unit: the lookup of its canonical name, and the
      lookup of the raw heading when that answers the catch-all. */
  function Commission(lookup: string -> string, name: string, raw: string): (r: string)
    ensures r == lookup(name) || r == lookup(raw)
    ensures lookup(name) != OtherCommission ==> r == lookup(name)
    ensures r == OtherCommission <==> lookup(name) == OtherCommission && lookup(raw) == OtherCommission
  {
    var c := lookup(name);
    if c == OtherCommission then lookup(raw) else c
  }
}

=== FILE: names_examples.dfy ===
/** Worked headings run through the name cleanup, including the one that
    shows a second cleanup can change a canonical name again. */
module NameExamples {
  import opened Text
  import opened Names

  /** A word sharing no character with `s` is never removed from it. */
  lemma RemoveAbsentWord(s: string, w: string, c: char)
    requires c in w && c !in s
    ensures !Contains(s, w) && Remove(s, w) == s
  {
    MissingCharNotContained(s, w, c);
    RemoveChangesIffContains(s, w);
  }

  lemma BoilerplateFacts()
    ensures forall k :: 0 <= k < |Boilerplate| ==> |Boilerplate[k]| > 0
    ensures '이' in Boilerplate[0] && '2' in Boilerplate[1] && '2' in Boilerplate[2]
    ensures '선' in Boilerplate[3] && '선' in Boilerplate[4] && Boilerplate[5] == "학생회"
    ensures '선' in Boilerplate[6]
  {
  }

  /** The `학생회` deletion on the doubled word leaves a new `학생회` behind. */
  lemma RemoveDoubledCouncil()
    ensures Remove("학생학생회회", "학생회") == "학생회"
  {
    assert Remove("", "학생회") == "";
    assert Remove("회", "학생회") == "회";
    assert Remove("학생회회", "학생회") == "회";
    assert Remove("생학생회회", "학생회") == "생회";
  }

  /** A name without `이`, `2` and `선` loses at most the word `학생회`. */
  lemma BoilerplateOnlyCouncil(s: string, r: string)
    requires '이' !in s && '2' !in s && '선' !in s
    requires Remove(s, Boilerplate[5]) == r && '선' !in r
    ensures RemoveAll(s, Boilerplate) == r
  {
    var b := Boilerplate;
    BoilerplateFacts();
    forall k | 0 <= k < 5 ensures !Contains(s, b[k]) {
      var c := if k == 0 then '이' else if k < 3 then '2' else '선';
      MissingCharNotContained(s, b[k], c);
    }
    MissingCharNotContained(r, b[6], '선');
    RemoveAllOnly(s, b, 5, r);
  }

  /** Of all boilerplate words, only `학생회` occurs in the doubled word. */
  lemma BoilerplateOnDoubledCouncil(s: string)
    requires s == "학생학생회회"
    ensures RemoveAll(s, Boilerplate) == "학생회"
  {
    BoilerplateFacts();
    RemoveDoubledCouncil();
    BoilerplateOnlyCouncil(s, "학생회");
  }

  /** A name without `총`, `외`, `아` and `상` falls through to the boilerplate deletions. */
  lemma RewriteFallsThrough(s: string)
    requires '총' !in s && '외' !in s && '아' !in s && '상' !in s
    ensures Rewrite(s) == RemoveAll(s, Boilerplate)
  {
    MissingCharNotContained(s, TotalCouncil, '총');
    MissingCharNotContained(s, ClubUnion, '총');
    MissingCharNotContained(s, ForeignKeyword, '외');
    MissingCharNotContained(s, ChildKeyword, '아');
    MissingCharNotContained(s, BusinessCollege, '상');
  }

  /** Of all boilerplate words, only `학생회` occurs in `학생회`, and removing it leaves nothing. */
  lemma BoilerplateOnCouncil(s: string)
    requires s == "학생회"
    ensures RemoveAll(s, Boilerplate) == ""
  {
    BoilerplateFacts();
    assert Remove(s, Boilerplate[5]) == "" by {
      assert StartsWith(s, s) && s[|s|..] == [];
    }
    BoilerplateOnlyCouncil(s, "");
  }

  lemma CouncilWordWellSpaced()
    ensures Collapse("학생회") == "학생회"
  {
    var once: string := "학생회";
    forall k | 0 <= k < |once| ensures !IsSpace(once[k]) {
    }
    CollapseKeepsWellSpaced(once);
  }

  /** A heading no marker, margin or special rule touches is cleaned by the
      boilerplate deletions and the whitespace collapse alone. */
  lemma NormalizePlainHeading(s: string)
    requires '제' !in s && '세' !in s && '총' !in s && '외' !in s && '아' !in s && '상' !in s
    requires s == [] || (!IsSpace(s[0]) && !IsSpace(s[|s| - 1]))
    ensures Normalize(s) == Collapse(RemoveAll(s, Boilerplate))
  {
    CleanedUnmarked(s);
    RewriteFallsThrough(s);
  }

  /** `학생학생회회` cleans to `학생회`. */
  lemma NormalizeDoubledCouncil(s: string)
    requires s == "학생학생회회"
    ensures Normalize(s) == "학생회"
  {
    NormalizePlainHeading(s);
    BoilerplateOnDoubledCouncil(s);
    CouncilWordWellSpaced();
  }

  /** `학생회` on its own is boilerplate and cleans to the empty name. */
  lemma NormalizeCouncilWord(s: string)
    requires s == "학생회"
    ensures Normalize(s) == ""
  {
    NormalizePlainHeading(s);
    BoilerplateOnCouncil(s);
    CollapseKeepsWellSpaced("");
  }

  /** Cleaning is not idempotent, although the canonical names of the special
      rules are fixed points: `학생학생회회` cleans to `학생회`, which a second
      cleanup empties. */
  lemma NormalizeNotIdempotent(s: string)
    requires s == "학생학생회회"
    ensures Normalize(Normalize(s)) != Normalize(s)
  {
    NormalizeDoubledCouncil(s);
    NormalizeCouncilWord(Normalize(s));
  }

  /** The tail of the council heading holds no marker. */
  lemma CouncilHeadingTail(rest: string)
    requires rest == " 총학생회 선거운동본부"
    ensures StripMarkers(rest) == rest
  {
    assert '제' !in rest && '세' !in rest;
    MissingCharNotContained(rest, Institution, '세');
    NoMarkerWithoutLeadChars(rest);
    StripMarkersChangesIffMatch(rest);
  }

  /** `제63대` is a generation marker four characters long. */
  lemma GenerationMarker(marked: string)
    requires |marked| > 4 && marked[..4] == "제63대"
    ensures MarkerLength(marked) == 4
  {
    assert DigitRun(marked[1..][2..]) == 0;
    assert DigitRun(marked[1..][1..]) == 1;
    assert DigitRun(marked[1..]) == 2;
  }

  /** A heading opening with the institution name, a space and a marker loses
      the name and the marker and keeps the space. */
  lemma StripInstitutionAndMarker(marker: string, rest: string)
    requires |marker| > 0 && MarkerLength(marker + rest) == |marker|
    ensures StripMarkers(Institution + [' '] + marker + rest) == [' '] + StripMarkers(rest)
  {
    var tail := [' '] + (marker + rest);
    var s := Institution + tail;
    assert s == Institution + [' '] + marker + rest;
    assert s[..|Institution|] == Institution;
    assert MarkerLength(s) == |Institution|;
    assert StripMarkers(s) == StripMarkers(tail);
    assert MarkerLength(tail) == 0;
    assert tail[1..] == marker + rest;
    assert StripMarkers(tail) == [' '] + StripMarkers(marker + rest);
    assert (marker + rest)[|marker|..] == rest;
  }

  /** The heading `연세대학교 제63대 총학생회 선거운동본부` loses the institution
      name and the `제63대` generation marker, keeping the spaces around them. */
  lemma StripMarkersOnCouncilHeading(raw: string, rest: string)
    requires rest == " 총학생회 선거운동본부"
    requires raw == Institution + " " + "제63대" + rest
    ensures StripMarkers(raw) == [' '] + rest
  {
    var marker: string := "제63대";
    CouncilHeadingTail(rest);
    GenerationMarker(marker + rest);
    StripInstitutionAndMarker(marker, rest);
  }

  /** The whitespace margin the marker deletion left is stripped. */
  lemma CleanedCouncilHeading(raw: string, rest: string)
    requires rest == " 총학생회 선거운동본부"
    requires raw == Institution + " " + "제63대" + rest
    ensures StartsWith(Cleaned(raw), TotalCouncil)
  {
    StripMarkersOnCouncilHeading(raw, rest);
    var stripped := [' '] + rest;
    assert stripped[2..6] == TotalCouncil && stripped[|stripped| - 1] == '부';
    StripToCouncil(stripped);
  }

  /** Two margin characters before `총학생회` are all that stripping removes. */
  lemma StripToCouncil(s: string)
    requires |s| >= 6 && IsSpace(s[0]) && IsSpace(s[1]) && s[2..6] == TotalCouncil
    requires !IsSpace(s[|s| - 1])
    ensures StartsWith(Strip(s), TotalCouncil)
  {
    assert s[2] == TotalCouncil[0];
    StripLeading(s, 2);
    assert s[2..][..4] == s[2..6];
  }

  /** The full heading of the student council election cleans to `총학생회`. */
  lemma NormalizeCouncilHeading(raw: string)
    requires raw == "연세대학교 제63대 총학생회 선거운동본부"
    ensures Normalize(raw) == TotalCouncil
  {
    var rest: string := " 총학생회 선거운동본부";
    assert raw == Institution + " " + "제63대" + rest;
    CleanedCouncilHeading(raw, rest);
    NormalizePriority(raw);
  }

  /** Deleting the college name from `이과대학 학생회` leaves ` 학생회`. */
  lemma RemoveCollegeWord(s: string, tail: string)
    requires tail == " 학생회" && s == Boilerplate[0] + tail
    ensures Remove(s, Boilerplate[0]) == tail
  {
    var w := Boilerplate[0];
    assert StartsWith(s, w);
    assert s[|w|..] == tail;
    RemoveAbsentWord(tail, w, '이');
  }

  /** Deleting `학생회` from ` 학생회` leaves a single space. */
  lemma RemoveCouncilAfterSpace(tail: string)
    requires tail == " 학생회"
    ensures Remove(tail, Boilerplate[5]) == " "
  {
    var w := Boilerplate[5];
    assert w[0] == '학' && tail[0] == ' ';
    assert !StartsWith(tail, w) by {
      if |w| <= |tail| { assert tail[..|w|][0] == ' '; }
    }
    assert tail[1..] == w;
    assert Remove(w, w) == [] by {
      assert w[|w|..] == [];
    }
  }

  /** After the college name goes, only `학생회` is left to delete. */
  lemma BoilerplateOnCollegeCouncil(s: string, tail: string)
    requires tail == " 학생회" && s == Boilerplate[0] + tail
    ensures RemoveAll(s, Boilerplate) == " "
  {
    var b := Boilerplate;
    BoilerplateFacts();
    RemoveCollegeWord(s, tail);
    RemoveCouncilAfterSpace(tail);
    MissingCharNotContained(tail, b[0], '이');
    BoilerplateOnlyCouncil(tail, " ");
    RemoveAllSplit(s, b, 1);
    RemoveAllSplit(tail, b, 1);
    assert b[..1][1..] == [];
  }

  lemma CollapseSpace(s: string)
    requires s == " "
    ensures Collapse(s) == ""
  {
    assert IsSpace(s[0]);
    assert Words(s) == [];
  }

  /** The heading `이과대학 학생회` of the College of Science council cleans to
      the empty name: the college name is itself one of the boilerplate words. */
  lemma NormalizeCollegeOfScience(s: string, tail: string)
    requires tail == " 학생회" && s == Boilerplate[0] + tail
    ensures Normalize(s) == ""
  {
    NormalizePlainHeading(s);
    BoilerplateOnCollegeCouncil(s, tail);
    CollapseSpace(" ");
  }
}

=== FILE: ordering.dfy ===
/** The order of the scraped units: by the rank of their commission in the
    fixed commission list, unlisted commissions last, ties kept in page order;
    then serial numbers 1..n. */
module Ordering {
  import opened Scrape

  /** The commissions in the order the dashboard lists them. */
  const CommissionOrder: seq<string> := [
    "중앙선거관리위원회", "총동아리연합회", "문과대학", "상경·경영대학", "이과대학",
    "공과대학", "인공지능융합대학",
    "신과대학", "사회과학대학", "생명시스템대학", "음악대학",
    "생활과학대학", "교육과학대학", "체육계열", "의과대학", "치과대학",
    "간호대학", "약학대학", "언더우드국제대학", "글로벌인재대학"
  ]

  /** The position of `c` in `order`, or `|order|` when it is not listed. */
  function IndexIn(order: seq<string>, c: string): (r: nat)
    ensures r <= |order|
    ensures r < |order| <==> c in order
    ensures r < |order| ==> order[r] == c && forall j :: 0 <= j < r ==> order[j] != c
  {
    if |order| == 0 then 0
    else if order[0] == c then 0
    else
      assert order == [order[0]] + order[1..];
      1 + IndexIn(order[1..], c)
  }

  /** The sort rank of a commission: its place in the list, and one past the
      end for every commission the list does not name. */
  function Rank(c: string): (r: nat)
    ensures r <= |CommissionOrder|
    ensures r < |CommissionOrder| <==> c in CommissionOrder
    ensures r < |CommissionOrder| ==> CommissionOrder[r] == c
  {
    IndexIn(CommissionOrder, c)
  }

  /** A unit together with its position on the page. */
  datatype Tagged = Tagged(index: nat, unit: Unit)

  function Tag(us: seq<Unit>): (r: seq<Tagged>)
    ensures |r| == |us|
    ensures forall i :: 0 <= i < |us| ==> r[i] == Tagged(i, us[i])
  {
    seq(|us|, i requires 0 <= i < |us| => Tagged(i, us[i]))
  }

  /** `a` may come before `b`: a smaller rank, or the same rank and an earlier
      page position. */
  predicate NotAfter(a: Tagged, b: Tagged, rank: string -> nat) {
    var ra, rb := rank(a.unit.commission), rank(b.unit.commission);
    ra < rb || (ra == rb && a.index <= b.index)
  }

  predicate SortedTags(s: seq<Tagged>, rank: string -> nat) {
    forall i, j :: 0 <= i < j < |s| ==> NotAfter(s[i], s[j], rank)
  }

  function Insert(x: Tagged, s: seq<Tagged>, rank: string -> nat): (r: seq<Tagged>)
    ensures |r| == |s| + 1
  {
    if |s| == 0 then [x]
    else if NotAfter(x, s[0], rank) then [x] + s
    else [s[0]] + Insert(x, s[1..], rank)
  }

  /** Sorting by the pair (commission rank, page position). */
  function SortTags(s: seq<Tagged>, rank: string -> nat): (r: seq<Tagged>)
    ensures |r| == |s|
  {
    if |s| == 0 then [] else Insert(s[0], SortTags(s[1..], rank), rank)
  }

  lemma {:induction false} InsertMultiset(x: Tagged, s: seq<Tagged>, rank: string -> nat)
    ensures multiset(Insert(x, s, rank)) == multiset(s) + multiset{x}
  {
    if |s| > 0 && !NotAfter(x, s[0], rank) {
      InsertMultiset(x, s[1..], rank);
      assert s == [s[0]] + s[1..];
    }
  }

  lemma {:induction false} SortTagsMultiset(s: seq<Tagged>, rank: string -> nat)
    ensures multiset(SortTags(s, rank)) == multiset(s)
  {
    if |s| > 0 {
      SortTagsMultiset(s[1..], rank);
      InsertMultiset(s[0], SortTags(s[1..], rank), rank);
      HeadMultiset(s);
    }
  }

  lemma HeadMultiset(s: seq<Tagged>)
    requires |s| > 0
    ensures multiset(s) == multiset(s[1..]) + multiset{s[0]}
  {
    assert s == [s[0]] + s[1..];
  }

  /** Every element of the result was in `s` or is `x`. */
  lemma InsertElements(x: Tagged, s: seq<Tagged>, rank: string -> nat)
    ensures forall y :: y in Insert(x, s, rank) ==> y == x || y in s
  {
    InsertMultiset(x, s, rank);
    forall y | y in Insert(x, s, rank) ensures y == x || y in s {
      assert y in multiset(Insert(x, s, rank));
    }
  }

  lemma {:induction false} InsertSorted(x: Tagged, s: seq<Tagged>, rank: string -> nat)
    requires SortedTags(s, rank)
    ensures SortedTags(Insert(x, s, rank), rank)
  {
    if |s| > 0 && !NotAfter(x, s[0], rank) {
      var t := s[1..];
      InsertSorted(x, t, rank);
      InsertElements(x, t, rank);
      var r := Insert(x, s, rank);
      assert r == [s[0]] + Insert(x, t, rank);
      forall i, j | 0 <= i < j < |r| ensures NotAfter(r[i], r[j], rank) {
        if i == 0 {
          assert r[j] in Insert(x, t, rank);
          if r[j] != x {
            var k :| 0 <= k < |t| && t[k] == r[j];
            assert s[k + 1] == r[j];
          }
        } else {
          assert r[i] == Insert(x, t, rank)[i - 1] && r[j] == Insert(x, t, rank)[j - 1];
        }
      }
    }
  }

  lemma {:induction false} SortTagsSorted(s: seq<Tagged>, rank: string -> nat)
    ensures SortedTags(SortTags(s, rank), rank)
  {
    if |s| > 0 {
      SortTagsSorted(s[1..], rank);
      InsertSorted(s[0], SortTags(s[1..], rank), rank);
    }
  }

  /** A unit in its final place, with its serial number. */
  datatype Row = Row(serial: nat, unit: Unit)

  /** The units in dashboard order, numbered from 1. */
  function OrderUnits(us: seq<Unit>): (r: seq<Row>)
    ensures |r| == |us|
  {
    var sorted := SortTags(Tag(us), Rank);
    seq(|sorted|, i requires 0 <= i < |sorted| => Row(i + 1, sorted[i].unit))
  }

  /** The ordered rows are the page's units rearranged, each exactly once;
      listed commissions precede unlisted ones in list order, units of one
      commission rank keep their page order, and the serial numbers run 1..n. */
  lemma OrderUnitsSpec(us: seq<Unit>)
    ensures var sorted := SortTags(Tag(us), Rank);
            && multiset(sorted) == multiset(Tag(us))
            && |sorted| == |OrderUnits(us)|
            && (forall i :: 0 <= i < |sorted| ==>
                  OrderUnits(us)[i] == Row(i + 1, sorted[i].unit) &&
                  sorted[i].index < |us| && sorted[i].unit == us[sorted[i].index])
            && (forall i, j :: 0 <= i < j < |sorted| ==>
                  Rank(sorted[i].unit.commission) <= Rank(sorted[j].unit.commission))
            && (forall i, j :: (0 <= i < j < |sorted| &&
                                Rank(sorted[i].unit.commission) == Rank(sorted[j].unit.commission)) ==>
                  sorted[i].index < sorted[j].index)
  {
    var tags := Tag(us);
    var sorted := SortTags(tags, Rank);
    SortTagsMultiset(tags, Rank);
    SortTagsSorted(tags, Rank);
    TaggedUnits(us, sorted);
    StableTies(us, sorted);
  }

  /** Every tag of a rearrangement of `Tag(us)` names its own unit. */
  lemma TaggedUnits(us: seq<Unit>, sorted: seq<Tagged>)
    requires multiset(sorted) == multiset(Tag(us))
    ensures forall i :: 0 <= i < |sorted| ==> sorted[i].index < |us| && sorted[i].unit == us[sorted[i].index]
  {
    forall i | 0 <= i < |sorted| ensures sorted[i].index < |us| && sorted[i].unit == us[sorted[i].index] {
      assert sorted[i] in multiset(Tag(us));
      TagMember(us, sorted[i]);
    }
  }

  /** A sorted rearrangement of `Tag(us)` orders by rank, and by page position
      within a rank. */
  lemma StableTies(us: seq<Unit>, sorted: seq<Tagged>)
    requires multiset(sorted) == multiset(Tag(us)) && SortedTags(sorted, Rank)
    ensures forall i, j :: 0 <= i < j < |sorted| ==>
              Rank(sorted[i].unit.commission) <= Rank(sorted[j].unit.commission)
    ensures forall i, j :: (0 <= i < j < |sorted| &&
                            Rank(sorted[i].unit.commission) == Rank(sorted[j].unit.commission)) ==>
              sorted[i].index < sorted[j].index
  {
    forall i, j | 0 <= i < j < |sorted| &&
        Rank(sorted[i].unit.commission) == Rank(sorted[j].unit.commission)
      ensures sorted[i].index < sorted[j].index
    {
      assert NotAfter(sorted[i], sorted[j], Rank);
      if sorted[i].index == sorted[j].index {
        DistinctTags(us, sorted, i, j);
      }
    }
  }

  lemma DistinctTags(us: seq<Unit>, sorted: seq<Tagged>, i: nat, j: nat)
    requires multiset(sorted) == multiset(Tag(us))
    requires i < j < |sorted|
    ensures sorted[i].index != sorted[j].index
  {
    TagMember(us, sorted[i]);
    TagMember(us, sorted[j]);
    if sorted[i].index == sorted[j].index {
      TwiceCounted(sorted, i, j);
      TagCount(us, sorted[i].index);
    }
  }

  lemma TagMember(us: seq<Unit>, t: Tagged)
    requires t in multiset(Tag(us))
    ensures t.index < |us| && t == Tagged(t.index, us[t.index])
  {
    assert t in Tag(us);
  }

  /** A value held at two places is counted at least twice. */
  lemma TwiceCounted<T>(s: seq<T>, i: nat, j: nat)
    requires i < j < |s| && s[i] == s[j]
    ensures multiset(s)[s[i]] >= 2
  {
    assert s == s[..i] + [s[i]] + s[i + 1..j] + [s[j]] + s[j + 1..];
  }

  /** Each tag occurs once in `Tag(us)`. */
  lemma TagCount(us: seq<Unit>, k: nat)
    requires k < |us|
    ensures multiset(Tag(us))[Tagged(k, us[k])] == 1
  {
    var tags := Tag(us);
    assert tags == tags[..k] + [tags[k]] + tags[k + 1..];
    assert Tagged(k, us[k]) !in tags[..k];
    assert Tagged(k, us[k]) !in tags[k + 1..];
  }
}

=== FILE: parsing.dfy ===
/** Reading the labelled values of one election card: the counts shown as
    `1,234명`, the turnout shown as `rate%(N명)` or `rate%`, and the dispatch
    on the label text that decides which field a value fills. */
module Parsing {
  import opened Wrappers
  import opened Text

  const TurnoutLabel := "투표율"
  const EligibleLabel := "총 유권자"
  const QuorumLabel := "투표 성사"
  const RemainingLabel := "남은 투표"

  predicate AllDigits(s: string) {
    forall k :: 0 <= k < |s| ==> IsDigit(s[k])
  }

  /** The value of a digit string, read left to right. */
  function DigitsValue(ds: string): nat
    requires AllDigits(ds)
  {
    if |ds| == 0 then 0
    else DigitsValue(ds[..|ds| - 1]) * 10 + (ds[|ds| - 1] as int - '0' as int)
  }

  /** What `int()` accepts here: an optional sign and at least one ASCII digit. */
  predicate IsIntLiteral(s: string) {
    |s| > 0 &&
    if s[0] == '-' || s[0] == '+' then |s| > 1 && AllDigits(s[1..]) else AllDigits(s)
  }

  /** Python's `int(s)` on an already stripped text; `None` where it raises. */
  function ParseInt(s: string): (r: Option<int>)
    ensures r.Some? <==> IsIntLiteral(s)
  {
    if |s| == 0 then None
    else if s[0] == '-' || s[0] == '+' then
      if |s| > 1 && AllDigits(s[1..]) then
        Some(if s[0] == '-' then 0 - DigitsValue(s[1..]) else DigitsValue(s[1..]))
      else None
    else if AllDigits(s) then Some(DigitsValue(s))
    else None
  }

  /** The decimal digits of `n`, as `str(n)` writes them. */
  function ShowNat(n: nat): (s: string)
    ensures |s| > 0 && AllDigits(s)
  {
    var d := ['0' + (n % 10) as char];
    if n < 10 then d else ShowNat(n / 10) + d
  }

  /** Reading back the digits of `n` gives `n`. */
  lemma {:induction false} ShowNatValue(n: nat)
    ensures DigitsValue(ShowNat(n)) == n
  {
    var s := ShowNat(n);
    if n >= 10 {
      ShowNatValue(n / 10);
      assert s[..|s| - 1] == ShowNat(n / 10);
    }
  }

  /** `str(n)` for any integer. */
  function ShowInt(n: int): string {
    if n < 0 then "-" + ShowNat(-n) else ShowNat(n)
  }

  /** `int(str(n)) == n` for every integer `n`. */
  lemma ParseShowInt(n: int)
    ensures ParseInt(ShowInt(n)) == Some(n)
  {
    if n < 0 {
      ShowNatValue(-n);
      assert ShowInt(n)[1..] == ShowNat(-n);
    } else {
      ShowNatValue(n);
    }
  }

  /** The forms `str()` never writes read as Python reads them: a `+` sign
      changes nothing, a `-` sign negates, and leading zeros are ignored, so
      `int("+5") == 5`, `int("-0") == 0` and `int("007") == 7`. */
  lemma ParseNonCanonical(d: string)
    requires |d| > 0 && AllDigits(d)
    ensures ParseInt(d).Some?
    ensures ParseInt(['+'] + d) == ParseInt(d)
    ensures ParseInt(['-'] + d) == Some(0 - ParseInt(d).value)
    ensures ParseInt(['0'] + d) == ParseInt(d)
  {
    assert (['+'] + d)[1..] == d && (['-'] + d)[1..] == d;
    LeadingZeroValue(d);
  }

  /** A leading zero adds nothing to the value of a digit string. */
  lemma {:induction false} LeadingZeroValue(d: string)
    requires AllDigits(d)
    ensures AllDigits(['0'] + d) && DigitsValue(['0'] + d) == DigitsValue(d)
  {
    var z := ['0'] + d;
    assert AllDigits(z) by {
      forall k | 0 <= k < |z| ensures IsDigit(z[k]) {
        if k > 0 { assert z[k] == d[k - 1]; }
      }
    }
    if |d| > 0 {
      var front := d[..|d| - 1];
      LeadingZeroValue(front);
      assert z[..|z| - 1] == ['0'] + front;
    }
  }

  /** Three digits, zero padded, for `0 <= k < 1000`. */
  function Pad3(k: nat): (s: string)
    requires k < 1000
    ensures |s| == 3 && AllDigits(s)
  {
    ['0' + (k / 100) as char, '0' + (k / 10 % 10) as char, '0' + (k % 10) as char]
  }

  /** `f"{n:,}"`: the digits of `n` with a comma before every group of three. */
  function Grouped(n: nat): string
  {
    if n < 1000 then ShowNat(n) else Grouped(n / 1000) + "," + Pad3(n % 1000)
  }

  /** `f"{n:,}"` for any integer, the way the election page shows counts. */
  function ShowCount(n: int): string {
    if n < 0 then "-" + Grouped(-n) else Grouped(n)
  }

  /** The text `int()` sees for a voter count or remaining count: `명` and
      `,` deleted, then stripped. */
  function CountText(v: string): string {
    Strip(Remove(Remove(v, "명"), ","))
  }

  /** The text `int()` sees for the count inside a turnout value: `명`, `)`
      and `,` deleted, then stripped. */
  function BracketCountText(v: string): string {
    Strip(Remove(Remove(Remove(v, "명"), ")"), ","))
  }

  /** The text `float()` sees for a turnout rate: `%` deleted, then stripped. */
  function RateText(v: string): string {
    Strip(Remove(v, "%"))
  }

  /** `parts[0]` of `s.split(c)`: everything before the first `c`. */
  function Before(s: string, c: char): (r: string)
    ensures |r| <= |s| && r == s[..|r|] && c !in r
    ensures |r| < |s| <==> c in s
    ensures |r| < |s| ==> s[|r|] == c
  {
    if |s| == 0 || s[0] == c then [] else [s[0]] + Before(s[1..], c)
  }

  /** Everything after the first `c` of `s`; with `Before`, `parts[1]` of `s.split(c)`. */
  function After(s: string, c: char): string
    requires c in s
  {
    s[|Before(s, c)| + 1..]
  }

  /** A label paragraph of a card and the value heading next to it, if any. */
  datatype Label = Label(text: string, value: Option<string>)

  /** The four values a card may show. The rate is kept as the text that the
      float parser accepted; a field that was never read or never parsed is `None`. */
  datatype Fields = Fields(rate: Option<string>, voted: Option<int>,
                           total: Option<int>, remaining: Option<int>)

  const NoFields := Fields(None, None, None, None)

  /** The effect of one label on the fields read so far. A turnout value with
      a bracket sets the rate and then the voter count inside one `try`, so a
      rate that does not parse leaves both untouched, while a count that does
      not parse keeps the rate already set. Other values overwrite their field
      only when they parse. */
  function Absorb(f: Fields, l: Label, isFloat: string -> bool): Fields
  {
    if l.value.None? then f
    else
      var v := l.value.value;
      if Contains(l.text, TurnoutLabel) then
        if '(' in v then
          var rate := RateText(Before(v, '('));
          if !isFloat(rate) then f
          else
            var voted := ParseInt(BracketCountText(Before(After(v, '('), '(')));
            if voted.None? then f.(rate := Some(rate))
            else f.(rate := Some(rate), voted := voted)
        else
          var rate := RateText(v);
          if isFloat(rate) then f.(rate := Some(rate)) else f
      else if Contains(l.text, EligibleLabel) then
        var total := ParseInt(CountText(v));
        if total.Some? then f.(total := total) else f
      else if Contains(l.text, QuorumLabel) || Contains(l.text, RemainingLabel) then
        var remaining := ParseInt(CountText(v));
        if remaining.Some? then f.(remaining := remaining) else f
      else f
  }

  /** The fields one label yields on a card that shows nothing else. */
  function Alone(l: Label, isFloat: string -> bool): Fields {
    Absorb(NoFields, l, isFloat)
  }

  /** Reads the labels of a card in order. */
  function ParseLabels(ls: seq<Label>, isFloat: string -> bool): Fields
  {
    if |ls| == 0 then NoFields
    else Absorb(ParseLabels(ls[..|ls| - 1], isFloat), ls[|ls| - 1], isFloat)
  }

  /** Fields read later replace the fields read earlier, when they are known. */
  function Overlay(older: Fields, newer: Fields): (r: Fields)
    ensures newer.voted.Some? ==> r.voted == newer.voted
    ensures newer.voted.None? ==> r.voted == older.voted
  {
    Fields(Prefer(newer.rate, older.rate), Prefer(newer.voted, older.voted),
           Prefer(newer.total, older.total), Prefer(newer.remaining, older.remaining))
  }

  // ---------------------------------------------------------------------------
  // Round trips of the number formats the page shows

  function Pow10(k: nat): (r: nat)
    ensures r > 0
  {
    if k == 0 then 1 else 10 * Pow10(k - 1)
  }

  /** Reading `a + b` reads `a`, shifted by the digits of `b`, plus `b`. */
  lemma {:induction false} DigitsAppend(a: string, b: string)
    requires AllDigits(a) && AllDigits(b)
    ensures AllDigits(a + b)
    ensures DigitsValue(a + b) == DigitsValue(a) * Pow10(|b|) + DigitsValue(b)
    decreases |b|
  {
    var ab := a + b;
    if |b| == 0 {
      assert ab == a;
    } else {
      var b' := b[..|b| - 1];
      DigitsAppend(a, b');
      assert ab[..|ab| - 1] == a + b';
      assert ab[|ab| - 1] == b[|b| - 1];
      var d := b[|b| - 1] as int - '0' as int;
      assert DigitsValue(ab) == DigitsValue(a + b') * 10 + d;
      assert DigitsValue(b) == DigitsValue(b') * 10 + d;
      ShiftDigit(DigitsValue(a), Pow10(|b'|), DigitsValue(b'), d);
    }
  }

  /** Appending a digit to `y` while `x` stands `p` places further left. */
  lemma ShiftDigit(x: int, p: int, y: int, d: int)
    ensures (x * p + y) * 10 + d == x * (10 * p) + (y * 10 + d)
  {
    assert (x * p + y) * 10 == x * p * 10 + y * 10;
    assert x * p * 10 == x * (10 * p);
  }

  lemma Pad3Value(k: nat)
    requires k < 1000
    ensures DigitsValue(Pad3(k)) == k
  {
    var p := Pad3(k);
    assert p[..2][..1] == p[..1];
    assert DigitsValue(p[..1]) == k / 100;
    assert DigitsValue(p[..2]) == k / 100 * 10 + k / 10 % 10;
  }

  lemma DigitsHaveNoSpace(s: string)
    requires AllDigits(s)
    ensures Strip(s) == s
  {
    if |s| > 0 {
      DigitEnds(s);
      StripUnpadded(s);
    } else {
      StripEmpty(s);
    }
  }

  lemma DigitEnds(s: string)
    requires |s| > 0 && AllDigits(s)
    ensures !IsSpace(s[0]) && !IsSpace(s[|s| - 1])
  {
    DigitNotSpace(s[0]);
    DigitNotSpace(s[|s| - 1]);
  }

  /** Deleting a character a text does not hold leaves it as it is. */
  lemma RemoveAbsentChar(s: string, c: char)
    requires c !in s
    ensures Remove(s, [c]) == s
  {
    MissingCharNotContained(s, [c], c);
    RemoveChangesIffContains(s, [c]);
  }

  lemma RemoveWholeChar(c: char)
    ensures Remove([c], [c]) == []
  {
    assert StartsWith([c], [c]);
    assert [c][1..] == [];
  }

  /** Deleting `c` from `a`, `c`, `b` when `b` holds no `c`. */
  lemma RemoveAcross(a: string, b: string, c: char)
    requires c !in b
    ensures Remove(a + [c] + b, [c]) == Remove(a, [c]) + b
  {
    RemoveCharAppend(a + [c], b, c);
    RemoveCharAppend(a, [c], c);
    RemoveWholeChar(c);
    RemoveAbsentChar(b, c);
  }

  /** Deleting the commas of a grouped number leaves its digits. */
  lemma {:induction false} UngroupValue(n: nat)
    ensures |Remove(Grouped(n), [','])| > 0 && AllDigits(Remove(Grouped(n), [',']))
    ensures DigitsValue(Remove(Grouped(n), [','])) == n
  {
    if n < 1000 {
      RemoveAbsentChar(ShowNat(n), ',');
      ShowNatValue(n);
    } else {
      var g := Grouped(n / 1000);
      var p := Pad3(n % 1000);
      UngroupValue(n / 1000);
      assert Grouped(n) == g + [','] + p;
      RemoveAcross(g, p, ',');
      DigitsAppend(Remove(g, [',']), p);
      Pad3Value(n % 1000);
    }
  }

  lemma GroupedHasNoUnit(n: nat)
    ensures '명' !in Grouped(n) && ')' !in Grouped(n) && '(' !in Grouped(n)
  {
    if n >= 1000 {
      GroupedHasNoUnit(n / 1000);
    }
  }

  /** Deleting `c` from a text followed by one `c`. */
  lemma RemoveTrailing(a: string, c: char)
    requires c !in a
    ensures Remove(a + [c], [c]) == a
  {
    RemoveCharAppend(a, [c], c);
    RemoveWholeChar(c);
    RemoveAbsentChar(a, c);
  }

  /** Deleting `c` from a text that starts with a character other than `c`. */
  lemma RemoveAfterLead(x: char, a: string, c: char)
    requires x != c
    ensures Remove([x] + a, [c]) == [x] + Remove(a, [c])
  {
    RemoveCharAppend([x], a, c);
    RemoveAbsentChar([x], c);
  }

  lemma ParseSigned(d: string)
    requires |d| > 0 && AllDigits(d)
    ensures ParseInt(Strip(['-'] + d)) == Some(0 - DigitsValue(d))
  {
    var t := ['-'] + d;
    StripLeading(t, 0);
    assert t[1..] == d;
  }

  lemma ParseUnsigned(d: string)
    requires |d| > 0 && AllDigits(d)
    ensures ParseInt(Strip(d)) == Some(DigitsValue(d))
  {
    DigitsHaveNoSpace(d);
  }

  /** The grouped number, its commas deleted and stripped, reads back as `n`. */
  lemma UngroupedParses(n: int)
    ensures ParseInt(Strip(Remove(ShowCount(n), [',']))) == Some(n)
  {
    var m := if n < 0 then -n else n;
    UngroupValue(m);
    var d := Remove(Grouped(m), [',']);
    if n < 0 {
      RemoveAfterLead('-', Grouped(m), ',');
      assert Remove(ShowCount(n), [',']) == ['-'] + d;
      ParseSigned(d);
    } else {
      ParseUnsigned(d);
    }
  }

  /** The count text of a value shown as `{n:,}명` reads back as `n`. */
  lemma CountRoundTrip(n: int)
    ensures ParseInt(CountText(ShowCount(n) + "명")) == Some(n)
  {
    var shown := ShowCount(n);
    GroupedHasNoUnit(if n < 0 then -n else n);
    RemoveTrailing(shown, '명');
    UngroupedParses(n);
  }

  /** The count inside a turnout value shown as `rate%({n:,}명)` reads back as `n`. */
  lemma BracketCountRoundTrip(n: int)
    ensures ParseInt(BracketCountText(ShowCount(n) + "명)")) == Some(n)
  {
    var shown := ShowCount(n);
    GroupedHasNoUnit(if n < 0 then -n else n);
    RemoveCharAppend(shown, "명)", '명');
    assert Remove("명)", "명") == ")" by {
      assert StartsWith("명)", "명");
      assert "명)"[1..] == ")";
      RemoveAbsentChar(")", '명');
    }
    RemoveAbsentChar(shown, '명');
    assert Remove(shown + "명)", "명") == shown + ")";
    RemoveTrailing(shown, ')');
    UngroupedParses(n);
  }

  // ---------------------------------------------------------------------------
  // How the labels of a card combine

  /** One label changes a field only by setting it to a value that label
      yields alone: reading a label overlays its own fields on the old ones. */
  lemma AbsorbOverlays(f: Fields, l: Label, isFloat: string -> bool)
    ensures Absorb(f, l, isFloat) == Overlay(f, Alone(l, isFloat))
  {
    if l.value.Some? {
      var v := l.value.value;
      if Contains(l.text, TurnoutLabel) {
        if '(' in v {
          var rate := RateText(Before(v, '('));
          var voted := ParseInt(BracketCountText(Before(After(v, '('), '(')));
          assert Alone(l, isFloat) == (if !isFloat(rate) then NoFields
            else if voted.None? then NoFields.(rate := Some(rate))
            else NoFields.(rate := Some(rate), voted := voted));
        }
      }
    }
  }

  function Rates(ls: seq<Label>, isFloat: string -> bool): (r: seq<Option<string>>)
    ensures |r| == |ls| && forall i :: 0 <= i < |ls| ==> r[i] == Alone(ls[i], isFloat).rate
  {
    seq(|ls|, i requires 0 <= i < |ls| => Alone(ls[i], isFloat).rate)
  }

  function VoterCounts(ls: seq<Label>, isFloat: string -> bool): (r: seq<Option<int>>)
    ensures |r| == |ls| && forall i :: 0 <= i < |ls| ==> r[i] == Alone(ls[i], isFloat).voted
  {
    seq(|ls|, i requires 0 <= i < |ls| => Alone(ls[i], isFloat).voted)
  }

  function Totals(ls: seq<Label>, isFloat: string -> bool): (r: seq<Option<int>>)
    ensures |r| == |ls| && forall i :: 0 <= i < |ls| ==> r[i] == Alone(ls[i], isFloat).total
  {
    seq(|ls|, i requires 0 <= i < |ls| => Alone(ls[i], isFloat).total)
  }

  function Remainders(ls: seq<Label>, isFloat: string -> bool): (r: seq<Option<int>>)
    ensures |r| == |ls| && forall i :: 0 <= i < |ls| ==> r[i] == Alone(ls[i], isFloat).remaining
  {
    seq(|ls|, i requires 0 <= i < |ls| => Alone(ls[i], isFloat).remaining)
  }

  /** Each field of a card is the value of the last label that yields one, and
      stays missing when no label does. */
  lemma {:induction false} ParseLabelsLastKnown(ls: seq<Label>, isFloat: string -> bool)
    ensures ParseLabels(ls, isFloat).rate == LastKnown(Rates(ls, isFloat))
    ensures ParseLabels(ls, isFloat).voted == LastKnown(VoterCounts(ls, isFloat))
    ensures ParseLabels(ls, isFloat).total == LastKnown(Totals(ls, isFloat))
    ensures ParseLabels(ls, isFloat).remaining == LastKnown(Remainders(ls, isFloat))
  {
    if |ls| > 0 {
      var init := ls[..|ls| - 1];
      ParseLabelsLastKnown(init, isFloat);
      ParseLabelsStep(ls, isFloat);
      ProjectionsStep(ls, isFloat);
    }
  }

  /** Reading one more label overlays what it yields alone. */
  lemma ParseLabelsStep(ls: seq<Label>, isFloat: string -> bool)
    requires |ls| > 0
    ensures ParseLabels(ls, isFloat)
            == Overlay(ParseLabels(ls[..|ls| - 1], isFloat), Alone(ls[|ls| - 1], isFloat))
  {
    AbsorbOverlays(ParseLabels(ls[..|ls| - 1], isFloat), ls[|ls| - 1], isFloat);
  }

  /** The last known values of the labels are those of the labels before the
      last, unless the last one yields its own. */
  lemma ProjectionsStep(ls: seq<Label>, isFloat: string -> bool)
    requires |ls| > 0
    ensures var init, a := ls[..|ls| - 1], Alone(ls[|ls| - 1], isFloat);
      && LastKnown(Rates(ls, isFloat)) == Prefer(a.rate, LastKnown(Rates(init, isFloat)))
      && LastKnown(VoterCounts(ls, isFloat)) == Prefer(a.voted, LastKnown(VoterCounts(init, isFloat)))
      && LastKnown(Totals(ls, isFloat)) == Prefer(a.total, LastKnown(Totals(init, isFloat)))
      && LastKnown(Remainders(ls, isFloat)) == Prefer(a.remaining, LastKnown(Remainders(init, isFloat)))
  {
    var init := ls[..|ls| - 1];
    assert Rates(ls, isFloat)[..|ls| - 1] == Rates(init, isFloat);
    assert VoterCounts(ls, isFloat)[..|ls| - 1] == VoterCounts(init, isFloat);
    assert Totals(ls, isFloat)[..|ls| - 1] == Totals(init, isFloat);
    assert Remainders(ls, isFloat)[..|ls| - 1] == Remainders(init, isFloat);
  }

  /** A voter count is only ever read together with a turnout rate, and a
      turnout label yields neither eligible nor remaining voters. */
  lemma AloneTurnout(l: Label, isFloat: string -> bool)
    ensures Alone(l, isFloat).voted.Some? ==> Alone(l, isFloat).rate.Some?
    ensures Alone(l, isFloat).rate.Some? ==>
              l.value.Some? && Contains(l.text, TurnoutLabel) &&
              Alone(l, isFloat).total.None? && Alone(l, isFloat).remaining.None?
    ensures Alone(l, isFloat).total.Some? ==>
              l.value.Some? && !Contains(l.text, TurnoutLabel) && Contains(l.text, EligibleLabel)
    ensures Alone(l, isFloat).remaining.Some? ==>
              l.value.Some? && !Contains(l.text, TurnoutLabel) && !Contains(l.text, EligibleLabel)
  {
    if l.value.Some? && Contains(l.text, TurnoutLabel) {
      var v := l.value.value;
      if '(' in v {
        var rate := RateText(Before(v, '('));
        var voted := ParseInt(BracketCountText(Before(After(v, '('), '(')));
        assert Alone(l, isFloat) == (if !isFloat(rate) then NoFields
          else if voted.None? then NoFields.(rate := Some(rate))
          else NoFields.(rate := Some(rate), voted := voted));
      }
    }
  }

  /** A turnout value whose rate part does not parse changes nothing, not even
      when its bracketed count would. */
  lemma RateFailureKeepsFields(f: Fields, l: Label, isFloat: string -> bool)
    requires l.value.Some? && Contains(l.text, TurnoutLabel)
    requires !isFloat(RateText(Before(l.value.value, '(')))
    ensures Absorb(f, l, isFloat) == f
  {
    var v := l.value.value;
    if '(' !in v {
      assert Before(v, '(') == v;
    }
  }

  lemma {:induction false} BeforeSeparator(a: string, b: string, c: char)
    requires c !in a
    ensures Before(a + [c] + b, c) == a
    ensures After(a + [c] + b, c) == b
  {
    var s := a + [c] + b;
    if |a| > 0 {
      BeforeSeparator(a[1..], b, c);
      assert s[1..] == a[1..] + [c] + b;
      assert s[0] == a[0] != c;
      assert Before(s, c) == [a[0]] + a[1..];
      assert a == [a[0]] + a[1..];
    } else {
      assert s[0] == c;
      assert s[1..] == b;
    }
  }

  lemma BeforeAbsent(s: string, c: char)
    requires c !in s
    ensures Before(s, c) == s
  {
  }

  lemma TurnoutParts(rate: string, rest: string)
    requires '(' !in rate && '(' !in rest
    ensures '(' in rate + "(" + rest
    ensures Before(rate + "(" + rest, '(') == rate
    ensures Before(After(rate + "(" + rest, '('), '(') == rest
  {
    assert (rate + "(" + rest)[|rate|] == '(';
    BeforeSeparator(rate, rest, '(');
    BeforeAbsent(rest, '(');
  }

  lemma CountTextNoBracket(n: int)
    ensures '(' !in ShowCount(n) + "명)"
  {
    GroupedHasNoUnit(if n < 0 then -n else n);
  }

  /** The bracketed turnout form, once its rate and count are known to parse. */
  lemma TurnoutBranch(f: Fields, l: Label, isFloat: string -> bool, rate: string, n: int)
    requires l.value.Some? && Contains(l.text, TurnoutLabel) && '(' in l.value.value
    requires Before(l.value.value, '(') == rate && isFloat(RateText(rate))
    requires ParseInt(BracketCountText(Before(After(l.value.value, '('), '('))) == Some(n)
    ensures Absorb(f, l, isFloat) == f.(rate := Some(RateText(rate)), voted := Some(n))
  {
  }

  /** A turnout label showing `rate%({n:,}명)` yields the rate text and `n`
      voters, provided the rate parses. */
  lemma TurnoutWithCount(l: Label, rate: string, count: string, n: int, isFloat: string -> bool)
    requires Contains(l.text, TurnoutLabel)
    requires count == ShowCount(n) + "명)"
    requires '(' !in rate && l.value == Some(rate + "(" + count)
    requires isFloat(RateText(rate))
    ensures Alone(l, isFloat) == Fields(Some(RateText(rate)), Some(n), None, None)
  {
    TurnoutSplit(l.value.value, rate, count, n);
    TurnoutBranch(NoFields, l, isFloat, rate, n);
  }

  lemma TurnoutSplit(v: string, rate: string, rest: string, n: int)
    requires '(' !in rate && rest == ShowCount(n) + "명)" && v == rate + "(" + rest
    ensures '(' in v && Before(v, '(') == rate
    ensures ParseInt(BracketCountText(Before(After(v, '('), '('))) == Some(n)
  {
    CountTextNoBracket(n);
    TurnoutParts(rate, rest);
    BracketCountRoundTrip(n);
  }

  /** An eligible-voters label showing `{n:,}명` yields `n`. */
  lemma EligibleCount(l: Label, n: int, isFloat: string -> bool)
    requires !Contains(l.text, TurnoutLabel) && Contains(l.text, EligibleLabel)
    requires l.value == Some(ShowCount(n) + "명")
    ensures Alone(l, isFloat) == Fields(None, None, Some(n), None)
  {
    CountRoundTrip(n);
  }

  /** A remaining-voters label showing `{n:,}명` yields `n`. */
  lemma RemainingCount(l: Label, n: int, isFloat: string -> bool)
    requires !Contains(l.text, TurnoutLabel) && !Contains(l.text, EligibleLabel)
    requires Contains(l.text, QuorumLabel) || Contains(l.text, RemainingLabel)
    requires l.value == Some(ShowCount(n) + "명")
    ensures Alone(l, isFloat) == Fields(None, None, None, Some(n))
  {
    CountRoundTrip(n);
  }

  /** A text ending in a character other than whitespace keeps that character
      last when stripped. */
  lemma StripKeepsLast(t: string)
    requires |t| > 0 && !IsSpace(t[|t| - 1])
    ensures |Strip(t)| > 0 && Strip(t)[|Strip(t)| - 1] == t[|t| - 1]
  {
    var r := Strip(t);
    var i :| StrippedAt(t, r, i);
    assert i + |r| == |t|;
  }

  lemma TrailingNonDigit(t: string)
    requires |t| > 0 && !IsSpace(t[|t| - 1]) && !IsDigit(t[|t| - 1])
    ensures ParseInt(Strip(t)) == None
  {
    StripKeepsLast(t);
    var r := Strip(t);
    assert !AllDigits(r);
    if |r| > 1 {
      assert r[1..][|r| - 2] == r[|r| - 1];
    }
  }

  lemma RemoveUnitKeepsBracket(shown: string, u: char, b: char, comma: char)
    requires u !in shown && u != b && comma != b
    ensures Remove(Remove(shown + [u, b], [u]), [comma]) == Remove(shown, [comma]) + [b]
  {
    assert shown + [u, b] == shown + [u] + [b];
    RemoveCharAppend(shown + [u], [b], u);
    RemoveTrailing(shown, u);
    RemoveAbsentChar([b], u);
    RemoveCharAppend(shown, [b], comma);
    RemoveAbsentChar([b], comma);
  }

  lemma BracketSurvivesCount(shown: string)
    requires '명' !in shown
    ensures CountText(shown + "명)") == Strip(Remove(shown, [',']) + ")")
  {
    RemoveUnitKeepsBracket(shown, '명', ')', ',');
  }

  /** Counts outside a turnout value keep a closing bracket, which `int()`
      refuses: such a count is left missing. */
  lemma BracketedCountUnread(n: int)
    ensures ParseInt(CountText(ShowCount(n) + "명)")) == None
  {
    GroupedHasNoUnit(if n < 0 then -n else n);
    BracketSurvivesCount(ShowCount(n));
    TrailingNonDigit(Remove(ShowCount(n), [',']) + ")");
  }

  /** A count that does not parse leaves its field as it was: unknown on a
      fresh card, never zero. */
  lemma UnparsableCountKeeps(f: Fields, l: Label, isFloat: string -> bool)
    requires l.value.Some? && !Contains(l.text, TurnoutLabel)
    requires ParseInt(CountText(l.value.value)).None?
    ensures Absorb(f, l, isFloat) == f
  {
    var n := ParseInt(CountText(l.value.value));
    if Contains(l.text, EligibleLabel) {
      assert Absorb(f, l, isFloat) == if n.Some? then f.(total := n) else f;
    } else if Contains(l.text, QuorumLabel) || Contains(l.text, RemainingLabel) {
      assert Absorb(f, l, isFloat) == if n.Some? then f.(remaining := n) else f;
    }
  }

  /** The page's `1,234명` reads as 1234. */
  lemma ThousandsExample(v: string)
    requires v == "1,234명"
    ensures ParseInt(CountText(v)) == Some(1234)
  {
    assert ShowNat(1) == "1";
    assert Pad3(234) == "234";
    assert Grouped(1234) == "1" + "," + "234";
    assert v == ShowCount(1234) + "명";
    CountRoundTrip(1234);
  }
}

=== FILE: scrape.dfy ===
/** The card loop of the scraper: every card of an in-progress section becomes
    one election unit, and the loop ends right after the foreign students'
    council. */
module Scrape {
  import opened Wrappers
  import opened Text
  import opened Seqs
  import opened Names
  import opened Parsing

  /** The section heading text that marks an election still in progress. */
  const InProgress := "진행중"

  /** What the page shows of one card: its unit heading, the heading of the
      section it sits under, and its labelled values. */
  datatype RawCard = RawCard(heading: Option<string>, section: Option<string>, labels: seq<Label>)

  /** One election unit: the commission in charge, the canonical unit name, and
      the values read from its card. */
  datatype Unit = Unit(commission: string, name: string, fields: Fields)

  /** A card is read when it has a unit heading and sits under a section marked
      as in progress. */
  predicate Qualifies(c: RawCard) {
    c.heading.Some? && c.section.Some? && Contains(c.section.value, InProgress)
  }

  /** The unit a qualifying card describes. */
  function ReadCard(c: RawCard, lookup: string -> string, isFloat: string -> bool): Unit
    requires c.heading.Some?
  {
    var name := Normalize(c.heading.value);
    Unit(Commission(lookup, name, c.heading.value), name, ParseLabels(c.labels, isFloat))
  }

  /** Every card read in order. */
  function ReadAll(cs: seq<RawCard>, lookup: string -> string, isFloat: string -> bool): (r: seq<Unit>)
    requires forall c :: c in cs ==> c.heading.Some?
    ensures |r| == |cs|
  {
    if |cs| == 0 then [] else [ReadCard(cs[0], lookup, isFloat)] + ReadAll(cs[1..], lookup, isFloat)
  }

  /** `us` up to and including its first unit called `name`; all of `us` when
      there is none. */
  function ThroughFirst(us: seq<Unit>, name: string): (r: seq<Unit>)
    ensures |r| <= |us| && r == us[..|r|]
    ensures forall i :: 0 <= i < |r| - 1 ==> r[i].name != name
    ensures |r| < |us| ==> |r| > 0 && r[|r| - 1].name == name
    ensures (forall i :: 0 <= i < |us| ==> us[i].name != name) ==> r == us
  {
    if |us| == 0 then []
    else if us[0].name == name then [us[0]]
    else
      var rest := ThroughFirst(us[1..], name);
      assert us == [us[0]] + us[1..];
      [us[0]] + rest
  }

  /** The loop over the page's cards, as the scraper runs it. */
  function CollectUnits(cards: seq<RawCard>, lookup: string -> string, isFloat: string -> bool): seq<Unit>
  {
    if |cards| == 0 then []
    else if !Qualifies(cards[0]) then CollectUnits(cards[1..], lookup, isFloat)
    else
      var u := ReadCard(cards[0], lookup, isFloat);
      if u.name == ForeignCouncil then [u] else [u] + CollectUnits(cards[1..], lookup, isFloat)
  }

  lemma ReadAllCons(c: RawCard, cs: seq<RawCard>, lookup: string -> string, isFloat: string -> bool)
    requires c.heading.Some? && forall d :: d in cs ==> d.heading.Some?
    ensures forall d :: d in [c] + cs ==> d.heading.Some?
    ensures ReadAll([c] + cs, lookup, isFloat) == [ReadCard(c, lookup, isFloat)] + ReadAll(cs, lookup, isFloat)
  {
    assert ([c] + cs)[1..] == cs;
  }

  lemma ThroughFirstCons(u: Unit, us: seq<Unit>, name: string)
    ensures ThroughFirst([u] + us, name) == if u.name == name then [u] else [u] + ThroughFirst(us, name)
  {
    assert ([u] + us)[1..] == us;
  }

  /** The loop reads the qualifying cards in page order and stops after the
      first unit named as the foreign students' council. */
  lemma {:induction false} CollectUnitsReadsQualifying(cards: seq<RawCard>, lookup: string -> string,
                                                       isFloat: string -> bool)
    ensures forall c :: c in Filter(cards, Qualifies) ==> c.heading.Some?
    ensures CollectUnits(cards, lookup, isFloat)
            == ThroughFirst(ReadAll(Filter(cards, Qualifies), lookup, isFloat), ForeignCouncil)
  {
    if |cards| > 0 {
      var tail := cards[1..];
      CollectUnitsReadsQualifying(tail, lookup, isFloat);
      var q, qt := Filter(cards, Qualifies), Filter(tail, Qualifies);
      if Qualifies(cards[0]) {
        assert q == [cards[0]] + qt;
        ReadAllCons(cards[0], qt, lookup, isFloat);
        ThroughFirstCons(ReadCard(cards[0], lookup, isFloat), ReadAll(qt, lookup, isFloat), ForeignCouncil);
      } else {
        assert q == qt;
      }
    }
  }

  /** The units are the units of a prefix of the qualifying cards; the
      foreign students' council, when it appears, appears exactly once and
      last; when no qualifying card yields it, every qualifying card is read. */
  lemma CollectUnitsStopsAtForeignCouncil(cards: seq<RawCard>, lookup: string -> string,
                                          isFloat: string -> bool)
    ensures forall c :: c in Filter(cards, Qualifies) ==> c.heading.Some?
    ensures var r, all := CollectUnits(cards, lookup, isFloat),
                          ReadAll(Filter(cards, Qualifies), lookup, isFloat);
            && |r| <= |all| && r == all[..|r|]
            && (forall i, j :: (0 <= i < |r| && 0 <= j < |r| && r[i].name == ForeignCouncil &&
                                r[j].name == ForeignCouncil) ==> i == j && i == |r| - 1)
            && (|r| < |all| ==> |r| > 0 && r[|r| - 1].name == ForeignCouncil)
            && ((forall i :: 0 <= i < |all| ==> all[i].name != ForeignCouncil) ==> r == all)
  {
    CollectUnitsReadsQualifying(cards, lookup, isFloat);
    var r, all := CollectUnits(cards, lookup, isFloat), ReadAll(Filter(cards, Qualifies), lookup, isFloat);
    CutOff(r, all, ForeignCouncil);
  }

  /** What `ThroughFirst` keeps, for a named result: a prefix whose only unit
      with the name is its last, and all of `us` when none has the name. */
  lemma CutOff(r: seq<Unit>, us: seq<Unit>, name: string)
    requires r == ThroughFirst(us, name)
    ensures |r| <= |us| && r == us[..|r|]
    ensures forall i, j :: (0 <= i < |r| && 0 <= j < |r| && r[i].name == name && r[j].name == name)
                           ==> i == j && i == |r| - 1
    ensures |r| < |us| ==> |r| > 0 && r[|r| - 1].name == name
    ensures (forall i :: 0 <= i < |us| ==> us[i].name != name) ==> r == us
  {
  }
}

=== FILE: seqs.dfy ===
/** Order-preserving selection, its complement, and the merge that undoes the pair. */
module Seqs {

  /** The elements of `xs` satisfying `p`, in their original order. */
  function Filter<T>(xs: seq<T>, p: T -> bool): (r: seq<T>)
    ensures |r| <= |xs|
    ensures forall x :: x in r ==> x in xs && p(x)
  {
    if |xs| == 0 then []
    else
      assert xs == [xs[0]] + xs[1..];
      (if p(xs[0]) then [xs[0]] else []) + Filter(xs[1..], p)
  }

  /** The elements of `xs` not satisfying `p`, in their original order. */
  function Reject<T>(xs: seq<T>, p: T -> bool): (r: seq<T>)
    ensures |r| <= |xs|
    ensures forall x :: x in r ==> x in xs && !p(x)
  {
    if |xs| == 0 then []
    else
      assert xs == [xs[0]] + xs[1..];
      (if p(xs[0]) then [] else [xs[0]]) + Reject(xs[1..], p)
  }

  /** Which elements of `xs` satisfy `p`, position by position. */
  function Flags<T>(xs: seq<T>, p: T -> bool): (r: seq<bool>)
    ensures |r| == |xs|
    ensures forall i :: 0 <= i < |xs| ==> r[i] == p(xs[i])
  {
    seq(|xs|, i requires 0 <= i < |xs| => p(xs[i]))
  }

  /** Interleaves `a` and `b`: the next element comes from `a` where the flag
      is true and from `b` where it is false. */
  function Merge<T>(flags: seq<bool>, a: seq<T>, b: seq<T>): seq<T>
    decreases |flags|
  {
    if |flags| == 0 then []
    else if flags[0] then
      (if |a| == 0 then [] else [a[0]] + Merge(flags[1..], a[1..], b))
    else
      (if |b| == 0 then [] else [b[0]] + Merge(flags[1..], a, b[1..]))
  }

  /** Splitting a sequence by a predicate loses nothing and reorders nothing:
      merging the two halves back along the predicate's flags rebuilds it. */
  lemma {:induction false} MergeFilterReject<T>(xs: seq<T>, p: T -> bool)
    ensures Merge(Flags(xs, p), Filter(xs, p), Reject(xs, p)) == xs
  {
    if |xs| > 0 {
      var flags, tail := Flags(xs, p), xs[1..];
      MergeFilterReject(tail, p);
      assert flags[1..] == Flags(tail, p);
      var a, b := Filter(xs, p), Reject(xs, p);
      if p(xs[0]) {
        assert a == [xs[0]] + Filter(tail, p);
        assert b == Reject(tail, p);
        assert a[0] == xs[0] && a[1..] == Filter(tail, p);
        assert Merge(flags, a, b) == [a[0]] + Merge(flags[1..], a[1..], b);
      } else {
        assert a == Filter(tail, p);
        assert b == [xs[0]] + Reject(tail, p);
        assert b[0] == xs[0] && b[1..] == Reject(tail, p);
        assert Merge(flags, a, b) == [b[0]] + Merge(flags[1..], a, b[1..]);
      }
    }
  }

  /** Filtering and rejecting by the same predicate split the elements of
      `xs` between them: together they hold each element as often as `xs` does. */
  lemma {:induction false} FilterRejectMultiset<T>(xs: seq<T>, p: T -> bool)
    ensures multiset(Filter(xs, p)) + multiset(Reject(xs, p)) == multiset(xs)
  {
    if |xs| > 0 {
      var tail := xs[1..];
      FilterRejectMultiset(tail, p);
      MultisetFront(xs[0], Filter(tail, p), Reject(tail, p), tail);
      assert xs == [xs[0]] + tail;
      if p(xs[0]) {
        assert Filter(xs, p) == [xs[0]] + Filter(tail, p) && Reject(xs, p) == Reject(tail, p);
      } else {
        assert Filter(xs, p) == Filter(tail, p) && Reject(xs, p) == [xs[0]] + Reject(tail, p);
      }
    }
  }

  /** An element put in front of either part is put in front of the whole. */
  lemma MultisetFront<T>(x: T, a: seq<T>, b: seq<T>, t: seq<T>)
    requires multiset(a) + multiset(b) == multiset(t)
    ensures multiset([x] + a) + multiset(b) == multiset([x] + t)
    ensures multiset(a) + multiset([x] + b) == multiset([x] + t)
  {
  }

  /** `Filter` keeps exactly the elements satisfying `p`. */
  lemma {:induction false} FilterMembers<T>(xs: seq<T>, p: T -> bool, x: T)
    ensures x in Filter(xs, p) <==> x in xs && p(x)
  {
    if |xs| > 0 {
      FilterMembers(xs[1..], p, x);
      assert xs == [xs[0]] + xs[1..];
    }
  }

  /** `key` strictly increases along `xs`. */
  predicate IncreasingBy<T>(xs: seq<T>, key: T -> int) {
    forall i, j :: 0 <= i < j < |xs| ==> key(xs[i]) < key(xs[j])
  }

  /** A selection from a sequence ordered by a strictly increasing key is
      ordered by that key too. */
  lemma {:induction false} FilterKeepsOrder<T>(xs: seq<T>, p: T -> bool, key: T -> int)
    requires IncreasingBy(xs, key)
    ensures IncreasingBy(Filter(xs, p), key)
  {
    if |xs| > 0 {
      var tail := xs[1..];
      assert IncreasingBy(tail, key) by {
        forall i, j | 0 <= i < j < |tail| ensures key(tail[i]) < key(tail[j]) {
          assert tail[i] == xs[i + 1] && tail[j] == xs[j + 1];
        }
      }
      FilterKeepsOrder(tail, p, key);
      var r, rt := Filter(xs, p), Filter(tail, p);
      if p(xs[0]) {
        assert r == [xs[0]] + rt;
        forall y | y in rt ensures y in tail {
          FilterMembers(tail, p, y);
        }
        IncreasingCons(xs, tail, r, rt, key);
      } else {
        assert r == rt;
      }
    }
  }

  /** The head of an increasing sequence, put in front of an increasing
      selection from its tail, keeps the key increasing. */
  lemma IncreasingCons<T>(xs: seq<T>, tail: seq<T>, r: seq<T>, rt: seq<T>, key: T -> int)
    requires |xs| > 0 && tail == xs[1..] && IncreasingBy(xs, key) && IncreasingBy(rt, key)
    requires r == [xs[0]] + rt && forall y :: y in rt ==> y in tail
    ensures IncreasingBy(r, key)
  {
    forall i, j | 0 <= i < j < |r| ensures key(r[i]) < key(r[j]) {
      assert r[j] == rt[j - 1] && rt[j - 1] in rt;
      if i == 0 {
        var k :| 0 <= k < |tail| && tail[k] == rt[j - 1];
        assert xs[k + 1] == r[j];
      } else {
        assert r[i] == rt[i - 1];
      }
    }
  }

  /** A predicate every element satisfies selects the whole sequence. */
  lemma {:induction false} FilterAll<T>(xs: seq<T>, p: T -> bool)
    ensures (forall k :: 0 <= k < |xs| ==> p(xs[k])) ==> Filter(xs, p) == xs
  {
    if |xs| > 0 && forall k :: 0 <= k < |xs| ==> p(xs[k]) {
      var tail := xs[1..];
      assert forall k :: 0 <= k < |tail| ==> tail[k] == xs[k + 1];
      FilterAll(tail, p);
      assert xs == [xs[0]] + tail;
    }
  }

  /** No element of `xs` occurs twice. */
  predicate Distinct<T(==)>(xs: seq<T>) {
    forall i, j :: 0 <= i < j < |xs| ==> xs[i] != xs[j]
  }

  /** In a sequence without repetitions every element is counted once. */
  lemma {:induction false} DistinctCount<T>(xs: seq<T>, x: T)
    requires Distinct(xs)
    ensures multiset(xs)[x] == if x in xs then 1 else 0
  {
    if |xs| > 0 {
      DistinctCount(xs[1..], x);
      assert xs == [xs[0]] + xs[1..];
    }
  }

  /** Two sequences without repetitions and with the same elements are
      rearrangements of each other. */
  lemma DistinctSameElements<T>(a: seq<T>, b: seq<T>)
    requires Distinct(a) && Distinct(b)
    requires forall x :: x in a <==> x in b
    ensures multiset(a) == multiset(b)
  {
    forall x ensures multiset(a)[x] == multiset(b)[x] {
      DistinctCount(a, x);
      DistinctCount(b, x);
    }
  }

  /** A selection from a sequence without repetitions has none either. */
  lemma {:induction false} FilterDistinct<T>(xs: seq<T>, p: T -> bool)
    requires Distinct(xs)
    ensures Distinct(Filter(xs, p))
  {
    if |xs| > 0 {
      var tail := xs[1..];
      FilterDistinct(tail, p);
      var r, rt := Filter(xs, p), Filter(tail, p);
      if p(xs[0]) {
        assert r == [xs[0]] + rt;
        assert xs[0] !in tail by {
          assert forall k :: 0 <= k < |tail| ==> tail[k] == xs[k + 1];
        }
        forall i, j | 0 <= i < j < |r| ensures r[i] != r[j] {
          if i == 0 {
            assert r[j] == rt[j - 1] && rt[j - 1] in rt;
          } else {
            assert r[i] == rt[i - 1] && r[j] == rt[j - 1];
          }
        }
      } else {
        assert r == rt;
      }
    }
  }
}

=== FILE: summary.dfy ===
/** The summary box above the table: vote growth split among the total
    council, the colleges and the departments, and the remaining-voters
    figure of the total council net of the target units. */
module Summary {
  import opened Wrappers
  import opened Text
  import opened Seqs
  import opened Names
  import opened Diff

  const CollegeSuffix := "대학"
  const DivisionSuffix := "계열"

  /** A college-level unit: its name ends in `대학`, `계열` or
      `총동아리연합회`, and it is neither the total council nor the foreign
      students' council. */
  predicate IsCollege(name: string) {
    (EndsWith(name, CollegeSuffix) || EndsWith(name, DivisionSuffix) || EndsWith(name, ClubUnion))
    && name != TotalCouncil && name != ForeignCouncil
  }

  predicate IsTotal(name: string) { name == TotalCouncil }

  /** Every other unit except the total council counts as a department. */
  predicate IsDept(name: string) { name != TotalCouncil && !IsCollege(name) }

  /** The sum of the growth of the records whose name satisfies `p`. */
  function GrowthOf(records: seq<Record>, p: string -> bool): int {
    if |records| == 0 then 0
    else (if p(NameOf(records[0])) then records[0].growth else 0) + GrowthOf(records[1..], p)
  }

  function TotalGrowth(records: seq<Record>): int {
    if |records| == 0 then 0 else records[0].growth + TotalGrowth(records[1..])
  }

  /** Each unit is counted in exactly one of the three groups. */
  lemma GroupsPartition(name: string)
    ensures IsTotal(name) || IsCollege(name) || IsDept(name)
    ensures !(IsTotal(name) && IsCollege(name))
    ensures !(IsTotal(name) && IsDept(name))
    ensures !(IsCollege(name) && IsDept(name))
  {
  }

  /** The three growth figures add up to the growth of the whole table. */
  lemma {:induction false} GrowthSplits(records: seq<Record>)
    ensures GrowthOf(records, IsTotal) + GrowthOf(records, IsCollege) + GrowthOf(records, IsDept)
            == TotalGrowth(records)
  {
    if |records| > 0 {
      GrowthSplits(records[1..]);
      GroupsPartition(NameOf(records[0]));
    }
  }

  /** A remaining count as the summary counts it: unknown as 0, negative as 0. */
  function Clamped(x: Option<int>): (r: nat)
    ensures x.Some? && x.value >= 0 ==> r == x.value
    ensures x.None? || x.value <= 0 ==> r == 0
  {
    if x.Some? && x.value > 0 then x.value else 0
  }

  function RemainingOf(r: Record): Option<int> { r.row.unit.fields.remaining }

  /** The total council's remaining voters, from its first row; 0 without one. */
  function RemTotal(records: seq<Record>): (r: nat)
    ensures (forall k :: 0 <= k < |records| ==> NameOf(records[k]) != TotalCouncil) ==> r == 0
  {
    if |records| == 0 then 0
    else if NameOf(records[0]) == TotalCouncil then Clamped(RemainingOf(records[0]))
    else RemTotal(records[1..])
  }

  /** The remaining voters of the target units, each counted as at least 0. */
  function RemTargetSum(records: seq<Record>, isTarget: string -> bool): nat {
    if |records| == 0 then 0
    else (if isTarget(NameOf(records[0])) then Clamped(RemainingOf(records[0])) else 0)
         + RemTargetSum(records[1..], isTarget)
  }

  /** The figure the summary shows: the total council's remaining voters less
      those of the target units. */
  function Value(records: seq<Record>, isTarget: string -> bool): int {
    RemTotal(records) - RemTargetSum(records, isTarget)
  }

  /** `RemTotal` reads the first total-council row and no other. */
  lemma {:induction false} RemTotalFirst(records: seq<Record>, k: nat)
    requires k < |records| && NameOf(records[k]) == TotalCouncil
    requires forall m :: 0 <= m < k ==> NameOf(records[m]) != TotalCouncil
    ensures RemTotal(records) == Clamped(RemainingOf(records[k]))
  {
    if k > 0 {
      RemTotalFirst(records[1..], k - 1);
    }
  }

  /** The target sum only grows with more target units: it is at least the
      clamped remaining count of any single target row. */
  lemma {:induction false} RemTargetSumCovers(records: seq<Record>, isTarget: string -> bool, k: nat)
    requires k < |records| && isTarget(NameOf(records[k]))
    ensures RemTargetSum(records, isTarget) >= Clamped(RemainingOf(records[k]))
  {
    if k > 0 {
      RemTargetSumCovers(records[1..], isTarget, k - 1);
    }
  }

  /** The target figure is a sum: the figure of a table is the figure of its
      first part plus the figure of the rest. */
  lemma {:induction false} RemTargetSumAppend(a: seq<Record>, b: seq<Record>, isTarget: string -> bool)
    ensures RemTargetSum(a + b, isTarget) == RemTargetSum(a, isTarget) + RemTargetSum(b, isTarget)
  {
    if |a| > 0 {
      RemTargetSumAppend(a[1..], b, isTarget);
      assert (a + b)[1..] == a[1..] + b;
    } else {
      assert a + b == b;
    }
  }

  /** A single row adds its clamped remaining count when it is a target unit,
      and nothing otherwise. */
  lemma RemTargetSumSingle(x: Record, isTarget: string -> bool)
    ensures RemTargetSum([x], isTarget) == if isTarget(NameOf(x)) then Clamped(RemainingOf(x)) else 0
  {
    assert [x][1..] == [];
  }

  /** The target sum is 0 exactly when no target row has voters left. */
  lemma {:induction false} RemTargetSumZero(records: seq<Record>, isTarget: string -> bool)
    ensures RemTargetSum(records, isTarget) == 0 <==>
            forall k :: 0 <= k < |records| && isTarget(NameOf(records[k])) ==> Clamped(RemainingOf(records[k])) == 0
  {
    if |records| > 0 {
      RemTargetSumZero(records[1..], isTarget);
      assert forall k :: 1 <= k < |records| ==> records[1..][k - 1] == records[k];
    }
  }

  /** The shown figure never exceeds the total council's remaining voters, and
      equals it exactly when no target unit has voters left; it is negative
      when the target units together have more left than the total council. */
  lemma ValueBounds(records: seq<Record>, isTarget: string -> bool)
    ensures Value(records, isTarget) <= RemTotal(records)
    ensures Value(records, isTarget) == RemTotal(records) <==>
            forall k :: 0 <= k < |records| && isTarget(NameOf(records[k])) ==> Clamped(RemainingOf(records[k])) == 0
    ensures Value(records, isTarget) >= 0 - RemTargetSum(records, isTarget)
    ensures Value(records, isTarget) < 0 <==> RemTargetSum(records, isTarget) > RemTotal(records)
  {
    RemTargetSumZero(records, isTarget);
  }
}

=== FILE: text.dfy ===
/** The handful of Python `str` operations the name cleanup and the value
    parsing rely on, over `seq<char>`: `in`, `startswith`/`endswith`,
    `strip()`, `" ".join(s.split())` and `replace(w, "")`. */
module Text {

  /** Python's `str.isspace()` for one character: the set `strip()` and
      `split()` treat as whitespace. */
  predicate IsSpace(c: char) {
    var n := c as int;
    (0x09 <= n <= 0x0D) || (0x1C <= n <= 0x20) || n == 0x85 || n == 0xA0
    || n == 0x1680 || (0x2000 <= n <= 0x200A) || n == 0x2028 || n == 0x2029
    || n == 0x202F || n == 0x205F || n == 0x3000
  }

  /** An ASCII decimal digit. */
  predicate IsDigit(c: char) {
    '0' <= c <= '9'
  }

  lemma DigitNotSpace(c: char)
    requires IsDigit(c)
    ensures !IsSpace(c)
  {
  }

  predicate StartsWith(s: string, w: string) {
    |w| <= |s| && s[..|w|] == w
  }

  predicate EndsWith(s: string, w: string) {
    |w| <= |s| && s[|s| - |w|..] == w
  }

  /** Python's `w in s`. */
  predicate Contains(s: string, w: string)
    decreases |s|
  {
    StartsWith(s, w) || (|s| > 0 && Contains(s[1..], w))
  }

  /** `w` occurs in `s` starting at position `i`. */
  predicate OccursAt(s: string, w: string, i: int) {
    0 <= i <= |s| - |w| && s[i..i + |w|] == w
  }

  /** `w in s` holds exactly when `w` occurs at some position of `s`. */
  lemma {:induction false} ContainsIffOccurs(s: string, w: string)
    ensures Contains(s, w) <==> exists i :: OccursAt(s, w, i)
    decreases |s|
  {
    if StartsWith(s, w) {
      assert OccursAt(s, w, 0);
    }
    if |s| > 0 {
      var t := s[1..];
      ContainsIffOccurs(t, w);
      if Contains(t, w) {
        var i :| OccursAt(t, w, i);
        OccursShift(s, t, w, i);
      }
      if !StartsWith(s, w) && exists i :: OccursAt(s, w, i) {
        var i :| OccursAt(s, w, i);
        assert i != 0;
        OccursShift(s, t, w, i - 1);
      }
    } else {
      if exists i :: OccursAt(s, w, i) {
        var i :| OccursAt(s, w, i);
        assert i == 0 && |w| == 0;
        assert StartsWith(s, w);
      }
    }
  }

  /** An occurrence in the tail is one in the whole text, one place later. */
  lemma OccursShift(s: string, t: string, w: string, i: int)
    requires |s| > 0 && t == s[1..] && 0 <= i
    ensures OccursAt(t, w, i) <==> OccursAt(s, w, i + 1)
  {
    if i <= |t| - |w| {
      var a, b := s[i + 1..i + 1 + |w|], t[i..i + |w|];
      forall k | 0 <= k < |w| ensures a[k] == b[k] {
        assert s[i + 1 + k] == t[i + k];
      }
      assert a == b;
    }
  }

  /** `w` starting the suffix from `i` is `w` occurring at `i`. */
  lemma StartsWithOccurs(s: string, w: string, i: nat)
    requires i <= |s|
    ensures StartsWith(s[i..], w) ==> OccursAt(s, w, i)
  {
    if |w| <= |s| - i {
      assert s[i..][..|w|] == s[i..i + |w|];
    }
  }

  /** A text lacking one of the characters of `w` cannot hold `w`. */
  lemma MissingCharNotContained(s: string, w: string, c: char)
    requires c in w && c !in s
    ensures !Contains(s, w)
  {
    ContainsIffOccurs(s, w);
  }

  /** Python's `s.lstrip()`: the suffix left after dropping leading whitespace. */
  function TrimStart(s: string): (r: string)
    ensures |r| <= |s| && r == s[|s| - |r|..]
    ensures forall k :: 0 <= k < |s| - |r| ==> IsSpace(s[k])
    ensures r == [] || !IsSpace(r[0])
  {
    if |s| > 0 && IsSpace(s[0]) then
      var r := TrimStart(s[1..]);
      TrimStartStep(s, s[1..], r);
      r
    else
      TrimStartNone(s);
      s
  }

  /** Nothing to drop when `s` does not start with whitespace. */
  lemma TrimStartNone(s: string)
    requires !(|s| > 0 && IsSpace(s[0]))
    ensures s == s[|s| - |s|..] && (s == [] || !IsSpace(s[0]))
  {
  }

  /** Dropping one more leading whitespace character in front of a trimmed tail. */
  lemma TrimStartStep(s: string, t: string, r: string)
    requires |s| > 0 && IsSpace(s[0]) && t == s[1..]
    requires |r| <= |t| && r == t[|t| - |r|..]
    requires forall k :: 0 <= k < |t| - |r| ==> IsSpace(t[k])
    ensures r == s[|s| - |r|..]
    ensures forall k :: 0 <= k < |s| - |r| ==> IsSpace(s[k])
  {
    forall k | 0 < k < |s| - |r| ensures IsSpace(s[k]) {
      assert s[k] == t[k - 1];
    }
  }

  /** Python's `s.rstrip()`: the prefix left after dropping trailing whitespace. */
  function TrimEnd(s: string): (r: string)
    ensures |r| <= |s| && r == s[..|r|]
    ensures forall k :: |r| <= k < |s| ==> IsSpace(s[k])
    ensures r == [] || !IsSpace(r[|r| - 1])
  {
    if |s| > 0 && IsSpace(s[|s| - 1]) then
      var r := TrimEnd(s[..|s| - 1]);
      TrimEndStep(s, s[..|s| - 1], r);
      r
    else
      TrimEndNone(s);
      s
  }

  /** Nothing to drop when `s` does not end with whitespace. */
  lemma TrimEndNone(s: string)
    requires !(|s| > 0 && IsSpace(s[|s| - 1]))
    ensures s == s[..|s|] && (s == [] || !IsSpace(s[|s| - 1]))
  {
  }

  /** Dropping one more trailing whitespace character behind a trimmed front. */
  lemma TrimEndStep(s: string, t: string, r: string)
    requires |s| > 0 && IsSpace(s[|s| - 1]) && t == s[..|s| - 1]
    requires |r| <= |t| && r == t[..|r|]
    requires forall k :: |r| <= k < |t| ==> IsSpace(t[k])
    ensures r == s[..|r|]
    ensures forall k :: |r| <= k < |s| ==> IsSpace(s[k])
  {
    forall k | |r| <= k < |t| ensures IsSpace(s[k]) {
      assert s[k] == t[k];
    }
  }

  /** Everything of `s` before position `i` and from position `j` on is whitespace. */
  predicate SpaceMargins(s: string, i: int, j: int) {
    0 <= i <= j <= |s|
    && (forall k :: 0 <= k < i ==> IsSpace(s[k]))
    && (forall k :: j <= k < |s| ==> IsSpace(s[k]))
  }

  /** `r` is the part of `s` from position `i` on, with only whitespace around it. */
  predicate StrippedAt(s: string, r: string, i: int) {
    SpaceMargins(s, i, i + |r|) && r == s[i..i + |r|]
  }

  /** Python's `s.strip()`: `s` with its whitespace margins cut off, and only those. */
  function Strip(s: string): (r: string)
    ensures r == [] || (!IsSpace(r[0]) && !IsSpace(r[|r| - 1]))
    ensures exists i :: StrippedAt(s, r, i)
  {
    var r := TrimEnd(TrimStart(s));
    StripMargins(s, TrimStart(s), r);
    r
  }

  /** Trimming both ends leaves a slice with only whitespace around it. */
  lemma StripMargins(s: string, t: string, r: string)
    requires t == TrimStart(s) && r == TrimEnd(t)
    ensures r == [] || (!IsSpace(r[0]) && !IsSpace(r[|r| - 1]))
    ensures exists i :: StrippedAt(s, r, i)
  {
    MarginsCompose(s, t, r);
  }

  /** A suffix after leading whitespace, cut before its own trailing
      whitespace, sits in the original with whitespace on both sides. */
  lemma MarginsCompose(s: string, t: string, r: string)
    requires |t| <= |s| && t == s[|s| - |t|..]
    requires forall k :: 0 <= k < |s| - |t| ==> IsSpace(s[k])
    requires |r| <= |t| && r == t[..|r|]
    requires forall k :: |r| <= k < |t| ==> IsSpace(t[k])
    requires t == [] || !IsSpace(t[0])
    requires r == [] || !IsSpace(r[|r| - 1])
    ensures StrippedAt(s, r, |s| - |t|)
    ensures exists i :: StrippedAt(s, r, i)
    ensures r == [] || (!IsSpace(r[0]) && !IsSpace(r[|r| - 1]))
  {
    var i := |s| - |t|;
    forall k | i + |r| <= k < |s| ensures IsSpace(s[k]) {
      assert s[k] == t[k - i];
    }
    assert StrippedAt(s, r, i);
  }

  /** A text with `k` leading whitespace characters and no trailing one strips to
      what follows them. */
  lemma {:induction false} StripLeading(s: string, k: nat)
    requires k < |s| && !IsSpace(s[k]) && !IsSpace(s[|s| - 1])
    requires forall j :: 0 <= j < k ==> IsSpace(s[j])
    ensures Strip(s) == s[k..]
    decreases k
  {
    if k > 0 {
      StripLeading(s[1..], k - 1);
      assert s[1..][k - 1..] == s[k..];
    }
  }

  /** A text with whitespace at neither end strips to itself. */
  lemma StripUnpadded(s: string)
    requires |s| > 0 && !IsSpace(s[0]) && !IsSpace(s[|s| - 1])
    ensures Strip(s) == s
  {
    StripLeading(s, 0);
    assert s[0..] == s;
  }

  lemma StripEmpty(s: string)
    requires |s| == 0
    ensures Strip(s) == s
  {
    var i :| StrippedAt(s, Strip(s), i);
  }

  /** A piece produced by `split()`: non-empty, no whitespace inside. */
  predicate IsWord(w: string) {
    |w| > 0 && forall k :: 0 <= k < |w| ==> !IsSpace(w[k])
  }

  /** The length of the run of non-whitespace characters `s` starts with. */
  function WordLength(s: string): (n: nat)
    ensures n <= |s|
    ensures forall k :: 0 <= k < n ==> !IsSpace(s[k])
    ensures n < |s| ==> IsSpace(s[n])
  {
    if |s| == 0 || IsSpace(s[0]) then 0 else 1 + WordLength(s[1..])
  }

  /** Python's `s.split()` with no separator: the maximal whitespace-free runs. */
  function Words(s: string): (ws: seq<string>)
    ensures forall k :: 0 <= k < |ws| ==> IsWord(ws[k])
    decreases |s|
  {
    var t := TrimStart(s);
    if |t| == 0 then []
    else
      var n := WordLength(t);
      var w := t[..n];
      assert IsWord(w);
      var rest := Words(t[n..]);
      WordsCons(w, rest);
      [w] + rest
  }

  /** A word in front of words gives words. */
  lemma WordsCons(w: string, rest: seq<string>)
    requires IsWord(w) && forall k :: 0 <= k < |rest| ==> IsWord(rest[k])
    ensures forall k :: 0 <= k < |[w] + rest| ==> IsWord(([w] + rest)[k])
  {
    var ws := [w] + rest;
    forall k | 0 <= k < |ws| ensures IsWord(ws[k]) {
      if k > 0 {
        assert ws[k] == rest[k - 1];
      }
    }
  }

  /** Python's `sep.join(ws)`. */
  function Join(ws: seq<string>, sep: string): string
  {
    if |ws| == 0 then ""
    else if |ws| == 1 then ws[0]
    else ws[0] + sep + Join(ws[1..], sep)
  }

  /** The only whitespace is the plain space, never at either end, never two
      in a row: the shape `" ".join(s.split())` produces. */
  predicate WellSpaced(s: string) {
    forall k :: 0 <= k < |s| && IsSpace(s[k]) ==>
      s[k] == ' ' && 0 < k < |s| - 1 && !IsSpace(s[k + 1])
  }

  /** Joining words with single spaces gives a well-spaced text that starts
      with the first word's first character and ends with the last word's last one. */
  lemma {:induction false} JoinWordsWellSpaced(ws: seq<string>)
    requires forall k :: 0 <= k < |ws| ==> IsWord(ws[k])
    ensures WellSpaced(Join(ws, " "))
    ensures |ws| > 0 ==> |Join(ws, " ")| > 0 && !IsSpace(Join(ws, " ")[0])
                         && !IsSpace(Join(ws, " ")[|Join(ws, " ")| - 1])
  {
    if |ws| > 1 {
      JoinWordsWellSpaced(ws[1..]);
      var w, rest := ws[0], Join(ws[1..], " ");
      var j := w + " " + rest;
      assert IsWord(w);
      assert j == Join(ws, " ");
      forall k | 0 <= k < |j| && IsSpace(j[k])
        ensures j[k] == ' ' && 0 < k < |j| - 1 && !IsSpace(j[k + 1])
      {
        if k > |w| {
          assert j[k] == rest[k - |w| - 1];
          if k + 1 < |j| {
            assert j[k + 1] == rest[k - |w|];
          }
        }
      }
      assert j[|j| - 1] == rest[|rest| - 1];
    } else if |ws| == 1 {
      assert IsWord(ws[0]);
    }
  }

  /** Python's `" ".join(s.split())`: whitespace runs become one space, margins go. */
  function Collapse(s: string): (r: string)
    ensures WellSpaced(r)
  {
    JoinWordsWellSpaced(Words(s));
    Join(Words(s), " ")
  }

  /** A text that starts with a word splits into that word and the words of the rest. */
  lemma WordsFirst(s: string)
    requires |s| > 0 && !IsSpace(s[0])
    ensures Words(s) == [s[..WordLength(s)]] + Words(s[WordLength(s)..])
  {
    assert TrimStart(s) == s;
  }

  /** A single space before a word is all that trimming removes. */
  lemma WordsAfterSpace(s: string, n: nat)
    requires 0 < n < |s| - 1 && s[n] == ' ' && !IsSpace(s[n + 1])
    ensures TrimStart(s[n..]) == s[n + 1..]
  {
    var t, rest := s[n..], s[n + 1..];
    assert IsSpace(t[0]);
    assert t[1..] == rest;
    assert rest[0] == s[n + 1];
    assert TrimStart(rest) == rest;
  }

  /** The tail of a well-spaced text after one of its spaces is well spaced. */
  lemma WellSpacedTail(s: string, n: nat)
    requires WellSpaced(s) && n < |s| && IsSpace(s[n])
    ensures WellSpaced(s[n + 1..])
  {
    var rest := s[n + 1..];
    forall k | 0 <= k < |rest| && IsSpace(rest[k])
      ensures rest[k] == ' ' && 0 < k < |rest| - 1 && !IsSpace(rest[k + 1])
    {
      assert rest[k] == s[n + 1 + k];
      assert k + 1 < |rest| ==> rest[k + 1] == s[n + 2 + k];
    }
  }

  lemma JoinCons(w: string, ws: seq<string>)
    requires |ws| > 0
    ensures Join([w] + ws, " ") == w + " " + Join(ws, " ")
  {
    assert ([w] + ws)[1..] == ws;
  }

  /** A word, one space and a text that starts with a word: the words are
      the first word followed by the words of the rest. */
  lemma WordsSplit(s: string, n: nat)
    requires 0 < n < |s| - 1 && n == WordLength(s) && s[n] == ' ' && !IsSpace(s[n + 1])
    ensures Words(s) == [s[..n]] + Words(s[n + 1..])
  {
    WordsFirst(s);
    WordsAfterSpace(s, n);
    assert |s[n..]| > 0;
    assert Words(s[n..]) == Words(s[n + 1..]);
  }

  lemma RejoinAtSpace(s: string, n: nat)
    requires n < |s| && s[n] == ' '
    ensures s[..n] + " " + s[n + 1..] == s
  {
    assert s == s[..n] + [s[n]] + s[n + 1..];
  }

  /** Collapsing a text that starts with a word, one space and a collapsed rest. */
  lemma CollapseStep(s: string, n: nat)
    requires 0 < n < |s| - 1 && n == WordLength(s) && s[n] == ' ' && !IsSpace(s[n + 1])
    requires Collapse(s[n + 1..]) == s[n + 1..]
    ensures Collapse(s) == s
  {
    var rest := s[n + 1..];
    WordsSplit(s, n);
    assert |Words(rest)| > 0;
    JoinCons(s[..n], Words(rest));
    RejoinAtSpace(s, n);
  }

  /** Collapsing leaves an already well-spaced text exactly as it is. */
  lemma {:induction false} CollapseKeepsWellSpaced(s: string)
    requires WellSpaced(s)
    ensures Collapse(s) == s
    decreases |s|
  {
    if |s| > 0 {
      var n := WordLength(s);
      if n < |s| {
        WellSpacedWordEnd(s, n);
        WellSpacedTail(s, n);
        CollapseKeepsWellSpaced(s[n + 1..]);
        CollapseStep(s, n);
      } else {
        CollapseWord(s);
      }
    }
  }

  /** In a well-spaced text the first word ends at a single space followed by
      another word. */
  lemma WellSpacedWordEnd(s: string, n: nat)
    requires WellSpaced(s) && 0 < |s| && n == WordLength(s) < |s|
    ensures 0 < n < |s| - 1 && s[n] == ' ' && !IsSpace(s[n + 1])
  {
  }

  /** A single word collapses to itself. */
  lemma CollapseWord(s: string)
    requires 0 < |s| && WordLength(s) == |s|
    ensures Collapse(s) == s
  {
    assert IsWord(s);
    WordsOfWord(s);
  }

  /** Collapsing changes a text exactly when it is not well spaced, so a
      second collapse never changes anything. */
  lemma CollapseFixedPoints(s: string)
    ensures Collapse(s) == s <==> WellSpaced(s)
    ensures Collapse(Collapse(s)) == Collapse(s)
  {
    if WellSpaced(s) {
      CollapseKeepsWellSpaced(s);
    }
    CollapseKeepsWellSpaced(Collapse(s));
  }

  /** A word followed by whitespace, or by nothing, is the whole first word. */
  lemma {:induction false} WordLengthOfWord(w: string, rest: string)
    requires IsWord(w) && (rest == [] || IsSpace(rest[0]))
    ensures WordLength(w + rest) == |w|
    decreases |w|
  {
    if |w| > 1 {
      assert IsWord(w[1..]) by {
        assert forall k :: 0 <= k < |w| - 1 ==> w[1..][k] == w[k + 1];
      }
      WordLengthOfWord(w[1..], rest);
      assert (w + rest)[1..] == w[1..] + rest;
    } else {
      assert (w + rest)[1..] == rest;
    }
  }

  /** `split()` gives back the words that `" ".join` put together. */
  lemma {:induction false} WordsOfJoin(ws: seq<string>)
    requires forall k :: 0 <= k < |ws| ==> IsWord(ws[k])
    ensures Words(Join(ws, " ")) == ws
  {
    if |ws| == 1 {
      assert IsWord(ws[0]);
      WordsOfWord(ws[0]);
    } else if |ws| > 1 {
      WordsTail(ws);
      WordsOfJoin(ws[1..]);
      WordsOfJoinCons(ws, ws[0], ws[1..]);
    }
  }

  /** The tail of a list of words is a list of words. */
  lemma WordsTail(ws: seq<string>)
    requires |ws| > 0 && forall k :: 0 <= k < |ws| ==> IsWord(ws[k])
    ensures forall k :: 0 <= k < |ws[1..]| ==> IsWord(ws[1..][k])
  {
    forall k | 0 <= k < |ws[1..]| ensures IsWord(ws[1..][k]) {
      assert ws[1..][k] == ws[k + 1];
    }
  }

  /** `WordsOfJoin` for a word in front of words it already holds for. */
  lemma WordsOfJoinCons(ws: seq<string>, w: string, tail: seq<string>)
    requires |ws| > 1 && w == ws[0] && tail == ws[1..]
    requires forall k :: 0 <= k < |ws| ==> IsWord(ws[k])
    requires forall k :: 0 <= k < |tail| ==> IsWord(tail[k])
    requires Words(Join(tail, " ")) == tail
    ensures Words(Join(ws, " ")) == ws
  {
    assert IsWord(w);
    var rest, j := Join(tail, " "), Join(ws, " ");
    JoinStartsWithWord(tail);
    JoinConsAt(ws, w, tail);
    WordsBeforeJoined(w, rest);
    SplitFirst(ws, w, tail);
    WordsChain(ws, w, tail, j, rest);
  }

  /** Words joined with spaces start with a character other than whitespace. */
  lemma JoinStartsWithWord(ws: seq<string>)
    requires |ws| > 0 && forall k :: 0 <= k < |ws| ==> IsWord(ws[k])
    ensures |Join(ws, " ")| > 0 && !IsSpace(Join(ws, " ")[0])
  {
    JoinWordsWellSpaced(ws);
  }

  /** A list is its first element in front of the rest. */
  lemma SplitFirst(ws: seq<string>, w: string, tail: seq<string>)
    requires |ws| > 0 && w == ws[0] && tail == ws[1..]
    ensures ws == [w] + tail
  {
  }

  /** The steps of `WordsOfJoinCons`, put together. */
  lemma WordsChain(ws: seq<string>, w: string, tail: seq<string>, j: string, rest: string)
    requires Words(j) == [w] + Words(rest) && Words(rest) == tail && ws == [w] + tail
    ensures Words(j) == ws
  {
  }

  /** `JoinCons` for a list given by its first word and the rest. */
  lemma JoinConsAt(ws: seq<string>, w: string, tail: seq<string>)
    requires |ws| > 1 && w == ws[0] && tail == ws[1..]
    ensures Join(ws, " ") == w + " " + Join(tail, " ")
  {
  }

  /** A single word splits into itself. */
  lemma WordsOfWord(w: string)
    requires IsWord(w)
    ensures Words(w) == [w]
  {
    WordLengthOfWord(w, []);
    assert w + [] == w;
    WordsFirst(w);
    assert w[|w|..] == [] && w[..|w|] == w;
  }

  /** A word, one space and a text starting with a word: the word comes
      first, then the words of the rest. */
  lemma WordsBeforeJoined(w: string, rest: string)
    requires IsWord(w) && |rest| > 0 && !IsSpace(rest[0])
    ensures Words(w + " " + rest) == [w] + Words(rest)
  {
    var j := w + " " + rest;
    JoinedShape(w, rest, j);
    WordsSplit(j, |w|);
  }

  /** Where the first word of `w + " " + rest` ends, and what lies around it. */
  lemma JoinedShape(w: string, rest: string, j: string)
    requires IsWord(w) && |rest| > 0 && !IsSpace(rest[0])
    requires j == w + " " + rest
    ensures 0 < |w| < |j| - 1 && WordLength(j) == |w| && j[|w|] == ' ' && !IsSpace(j[|w| + 1])
    ensures j[..|w|] == w && j[|w| + 1..] == rest
  {
    WordLengthOfWord(w, " " + rest);
    assert w + (" " + rest) == j;
  }

  /** A leading whitespace character never ends up in a word. */
  lemma WordsDropSpace(s: string)
    requires |s| > 0 && IsSpace(s[0])
    ensures Words(s) == Words(s[1..])
  {
    assert TrimStart(s) == TrimStart(s[1..]);
  }

  /** Cutting a text no earlier than where its first word ends keeps that word. */
  lemma {:induction false} WordLengthPrefix(s: string, k: nat)
    requires WordLength(s) <= k <= |s|
    ensures WordLength(s[..k]) == WordLength(s)
    decreases k
  {
    if k > 0 && !IsSpace(s[0]) {
      WordLengthPrefix(s[1..], k - 1);
      assert s[..k][1..] == s[1..][..k - 1];
    }
  }

  /** `split()` breaks at every whitespace character: the words of a text are
      the words before any one of its whitespace characters followed by the
      words after it. With `WordsConcat` this fixes where the words are. */
  lemma {:induction false} WordsAtSpace(s: string, k: nat)
    requires k < |s| && IsSpace(s[k])
    ensures Words(s) == Words(s[..k]) + Words(s[k + 1..])
    decreases |s|, 1
  {
    if IsSpace(s[0]) {
      if k == 0 {
        AtSpaceFront(s, k);
      } else {
        AtSpaceAfterLead(s, k);
      }
    } else if WordLength(s) == k {
      AtSpaceAfterWord(s, k);
    } else {
      AtSpaceInside(s, WordLength(s), k);
    }
  }

  /** `WordsAtSpace` at the very front. */
  lemma AtSpaceFront(s: string, k: nat)
    requires k == 0 && |s| > 0 && IsSpace(s[0])
    ensures Words(s) == Words(s[..k]) + Words(s[k + 1..])
  {
    WordsDropSpace(s);
    FrontPieces(s, k);
    WordsEmpty(s[..k]);
  }

  /** The slices `AtSpaceFront` works with. */
  lemma FrontPieces(s: string, k: nat)
    requires k == 0 < |s|
    ensures s[..k] == [] && s[k + 1..] == s[1..]
  {
  }

  /** The empty text has no words. */
  lemma WordsEmpty(t: string)
    requires t == []
    ensures Words(t) == []
  {
  }

  /** `WordsAtSpace` past a leading whitespace character, from the case of the tail. */
  lemma {:induction false} AtSpaceAfterLead(s: string, k: nat)
    requires 0 < k < |s| && IsSpace(s[0]) && IsSpace(s[k])
    ensures Words(s) == Words(s[..k]) + Words(s[k + 1..])
    decreases |s|, 0
  {
    WordsAtSpace(s[1..], k - 1);
    WordsDropSpace(s);
    LeadPieces(s, k);
    WordsDropSpace(s[..k]);
  }

  /** The slices `AtSpaceAfterLead` works with, one character in. */
  lemma LeadPieces(s: string, k: nat)
    requires 0 < k < |s|
    ensures s[1..][..k - 1] == s[..k][1..] && s[1..][k..] == s[k + 1..]
  {
  }

  /** `WordsAtSpace` right after the first word. */
  lemma AtSpaceAfterWord(s: string, k: nat)
    requires k < |s| && IsSpace(s[k]) && !IsSpace(s[0]) && WordLength(s) == k
    ensures Words(s) == Words(s[..k]) + Words(s[k + 1..])
  {
    var w := s[..k];
    WordsFirst(s);
    assert IsWord(w);
    WordsOfWord(w);
    WordsDropSpace(s[k..]);
    assert s[k..][1..] == s[k + 1..];
  }

  /** `WordsAtSpace` past the first word, from the case of what follows it. */
  lemma {:induction false} AtSpaceInside(s: string, n: nat, k: nat)
    requires k < |s| && IsSpace(s[k]) && !IsSpace(s[0]) && n == WordLength(s) && n != k
    ensures Words(s) == Words(s[..k]) + Words(s[k + 1..])
    decreases |s|, 0
  {
    var t, mid, after := s[n..], s[n..k], s[k + 1..];
    WordLengthPrefix(s, k);
    WordsPieces(s, n, k);
    WordsAtSpaceAt(t, k - n, mid, after);
    WordsFirstAt(s[..k], n, s[..n], mid);
    WordsFirst(s);
    Regroup(Words(s), s[..n], Words(t), Words(s[..k]), Words(mid), Words(after));
  }

  /** `WordsAtSpace` with the two sides named. */
  lemma {:induction false} WordsAtSpaceAt(s: string, k: nat, before: string, after: string)
    requires k < |s| && IsSpace(s[k])
    requires before == s[..k] && after == s[k + 1..]
    ensures Words(s) == Words(before) + Words(after)
    decreases |s|, 2
  {
    WordsAtSpace(s, k);
  }

  /** `WordsFirst` with the first word and what follows it named. */
  lemma WordsFirstAt(s: string, n: nat, w: string, rest: string)
    requires |s| > 0 && !IsSpace(s[0]) && n == WordLength(s)
    requires w == s[..n] && rest == s[n..]
    ensures Words(s) == [w] + Words(rest)
  {
    WordsFirst(s);
  }

  /** A word in front of two runs of words. */
  lemma Regroup(all: seq<string>, w: string, tail: seq<string>, left: seq<string>,
                a: seq<string>, b: seq<string>)
    requires all == [w] + tail && tail == a + b && left == [w] + a
    ensures all == left + b
  {
  }

  /** The slices `WordsAtSpace` works with, one word in. */
  lemma WordsPieces(s: string, n: nat, k: nat)
    requires 0 < n < k < |s| && WordLength(s[..k]) == n
    ensures s[..k][..n] == s[..n] && s[..k][n..] == s[n..k]
    ensures s[n..][..k - n] == s[n..k] && s[n..][k - n + 1..] == s[k + 1..]
  {
  }

  /** Collapsing whitespace keeps the words of a text, in their order. */
  lemma CollapseKeepsWords(s: string)
    ensures Words(Collapse(s)) == Words(s)
  {
    WordsOfJoin(Words(s));
  }

  /** The words put together with nothing between them. */
  function Concat(ws: seq<string>): string {
    if |ws| == 0 then "" else ws[0] + Concat(ws[1..])
  }

  /** The text with every whitespace character deleted. */
  function Unspaced(s: string): string {
    if |s| == 0 then "" else (if IsSpace(s[0]) then "" else [s[0]]) + Unspaced(s[1..])
  }

  /** `split()` loses only whitespace: the words put together are the text
      with every whitespace character deleted. */
  lemma {:induction false} WordsConcat(s: string)
    ensures Concat(Words(s)) == Unspaced(s)
    decreases |s|
  {
    if |s| > 0 {
      if IsSpace(s[0]) {
        WordsConcat(s[1..]);
        assert TrimStart(s) == TrimStart(s[1..]);
      } else {
        var n := WordLength(s);
        WordsFirst(s);
        WordsConcat(s[n..]);
        ConcatCons(s[..n], Words(s[n..]));
        UnspacedAfterWord(s, n, s[n..]);
      }
    }
  }

  lemma ConcatCons(w: string, ws: seq<string>)
    ensures Concat([w] + ws) == w + Concat(ws)
  {
    assert ([w] + ws)[1..] == ws;
  }

  /** Deleting whitespace keeps a leading run of other characters as it is;
      `rest` is what follows the run. */
  lemma {:induction false} UnspacedAfterWord(s: string, n: nat, rest: string)
    requires n <= |s| && rest == s[n..] && forall k :: 0 <= k < n ==> !IsSpace(s[k])
    ensures Unspaced(s) == s[..n] + Unspaced(rest)
  {
    if n > 0 {
      var tail := s[1..];
      UnspacedKeep(s);
      NonSpaceTail(s, n);
      UnspacedAfterWord(tail, n - 1, rest);
      ConsRegroup(Unspaced(s), s[0], Unspaced(tail), tail[..n - 1], Unspaced(rest), s[..n]);
    } else {
      assert s[..n] == [] && rest == s;
    }
  }

  /** A character other than whitespace survives the deletion. */
  lemma UnspacedKeep(s: string)
    requires |s| > 0 && !IsSpace(s[0])
    ensures Unspaced(s) == [s[0]] + Unspaced(s[1..])
  {
  }

  /** A leading run without whitespace, one character in. */
  lemma NonSpaceTail(s: string, n: nat)
    requires 0 < n <= |s| && forall k :: 0 <= k < n ==> !IsSpace(s[k])
    ensures forall k :: 0 <= k < n - 1 ==> !IsSpace(s[1..][k])
    ensures s[1..][n - 1..] == s[n..] && [s[0]] + s[1..][..n - 1] == s[..n]
  {
    assert forall k :: 0 <= k < n - 1 ==> s[1..][k] == s[k + 1];
  }

  /** Python's `s.replace(w, "")`: scanning left to right, every occurrence of
      `w` that does not overlap an earlier removed one is deleted. */
  function Remove(s: string, w: string): (r: string)
    requires |w| > 0
    ensures |r| <= |s|
    decreases |s|
  {
    if |s| == 0 then []
    else if StartsWith(s, w) then Remove(s[|w|..], w)
    else [s[0]] + Remove(s[1..], w)
  }

  /** A removal changes the text exactly when `w` occurs in it; when it does,
      the text gets strictly shorter. */
  lemma {:induction false} RemoveChangesIffContains(s: string, w: string)
    requires |w| > 0
    ensures Remove(s, w) == s <==> !Contains(s, w)
    ensures Contains(s, w) ==> |Remove(s, w)| < |s|
    decreases |s|
  {
    if |s| > 0 {
      RemoveChangesIffContains(s[1..], w);
      if !StartsWith(s, w) {
        assert Remove(s, w) == [s[0]] + Remove(s[1..], w);
        assert s == [s[0]] + s[1..];
        if Remove(s, w) == s {
          assert Remove(s[1..], w) == s[1..];
        }
      }
    }
  }

  /** The first occurrence of `w` is deleted and everything before it kept;
      the scan then carries on after it. With `RemoveChangesIffContains`
      this fixes the result: only the occurrences go. `rest` is what follows
      the occurrence at `i`. */
  lemma {:induction false} RemoveFirst(s: string, w: string, i: nat, rest: string)
    requires |w| > 0 && OccursAt(s, w, i) && rest == s[i + |w|..]
    requires forall j :: 0 <= j < i ==> !OccursAt(s, w, j)
    ensures Remove(s, w) == s[..i] + Remove(rest, w)
    decreases i
  {
    if i == 0 {
      RemoveAtFront(s, w, i, rest);
    } else {
      var tail := s[1..];
      RemoveKeep(s, w);
      NotOccursInTail(s, w, i);
      TailPieces(s, i, |w|);
      OccursInTail(s, w, i);
      RemoveFirst(tail, w, i - 1, rest);
      ConsRegroup(Remove(s, w), s[0], Remove(tail, w), tail[..i - 1], Remove(rest, w), s[..i]);
    }
  }

  /** An occurrence at the front is deleted. */
  lemma RemoveAtFront(s: string, w: string, i: nat, rest: string)
    requires i == 0 && |w| > 0 && OccursAt(s, w, i) && rest == s[i + |w|..]
    ensures Remove(s, w) == s[..i] + Remove(rest, w)
  {
    assert StartsWith(s, w);
    assert s[..i] == [];
  }

  /** A character where `w` does not start is kept. */
  lemma RemoveKeep(s: string, w: string)
    requires |w| > 0 && |s| > 0 && !OccursAt(s, w, 0)
    ensures Remove(s, w) == [s[0]] + Remove(s[1..], w)
  {
    assert !StartsWith(s, w);
  }

  /** No occurrence before position `i` means none before `i - 1` in the tail. */
  lemma NotOccursInTail(s: string, w: string, i: nat)
    requires 0 < i <= |s|
    requires forall j :: 0 <= j < i ==> !OccursAt(s, w, j)
    ensures forall j :: 0 <= j < i - 1 ==> !OccursAt(s[1..], w, j)
  {
    forall j | 0 <= j < i - 1 ensures !OccursAt(s[1..], w, j) {
      OccursInTail(s, w, j + 1);
    }
  }

  /** An occurrence past the front is one in the tail, one place earlier. */
  lemma OccursInTail(s: string, w: string, i: nat)
    requires 0 < i <= |s|
    ensures OccursAt(s, w, i) <==> OccursAt(s[1..], w, i - 1)
  {
    if i + |w| <= |s| {
      assert s[1..][i - 1..i - 1 + |w|] == s[i..i + |w|];
    }
  }

  /** The slices of a text one character in, around a piece at `i` of length `m`. */
  lemma TailPieces(s: string, i: nat, m: nat)
    requires 0 < i < |s| && i + m <= |s|
    ensures s[1..][i - 1..] == s[i..] && s[1..][i - 1 + m..] == s[i + m..]
    ensures [s[0]] + s[1..][..i - 1] == s[..i]
  {
  }

  /** A character in front of two pieces of text. */
  lemma ConsRegroup(all: string, c: char, tail: string, pre: string, x: string, front: string)
    requires all == [c] + tail && tail == pre + x && front == [c] + pre
    ensures all == front + x
  {
  }

  /** Deleting a single character distributes over concatenation. */
  lemma {:induction false} RemoveCharAppend(a: string, b: string, c: char)
    ensures Remove(a + b, [c]) == Remove(a, [c]) + Remove(b, [c])
    decreases |a|
  {
    if |a| > 0 {
      var t := a[1..];
      RemoveCharAppend(t, b, c);
      assert (a + b)[1..] == t + b && (a + b)[0] == a[0];
      RemoveCharHead(a + b, c);
      RemoveCharHead(a, c);
      AppendRegroup(Remove(a + b, [c]), if a[0] == c then [] else [a[0]], Remove(t + b, [c]),
                    Remove(t, [c]), Remove(b, [c]), Remove(a, [c]));
    } else {
      assert a + b == b;
    }
  }

  /** A common front `h` regroups across a concatenation. */
  lemma AppendRegroup(x: string, h: string, y: string, p: string, q: string, z: string)
    requires x == h + y && y == p + q && z == h + p
    ensures x == z + q
  {
  }

  /** Deleting a single character: the first character goes exactly when it is `c`. */
  lemma RemoveCharHead(s: string, c: char)
    requires |s| > 0
    ensures Remove(s, [c]) == (if s[0] == c then [] else [s[0]]) + Remove(s[1..], [c])
  {
    assert StartsWith(s, [c]) <==> s[0] == c;
  }
}

=== FILE: view.dfy ===
/** What the dashboard does with the table it shows: the commission filter,
    the split into complete and incomplete units, the row colouring, the
    countable note, the two name suffix rules and the order of the groups in
    the notice text. */
module View {
  import opened Wrappers
  import opened Text
  import opened Seqs
  import opened Ordering
  import opened Diff

  // ---------------------------------------------------------------------------
  // Filter and partition

  function CommissionOf(r: Record): string { r.row.unit.commission }

  function SerialOf(r: Record): int { r.row.serial }

  /** Whether a row passes the commission selection; an empty selection
      passes every row. */
  predicate Selected(selected: seq<string>, x: Record) {
    |selected| == 0 || CommissionOf(x) in selected
  }

  function Shown(selected: seq<string>): Record -> bool {
    x => Selected(selected, x)
  }

  /** The rows the commission selection shows. An empty selection shows the
      table as it is. Otherwise the shown rows and the hidden rows together
      are the table, each row counted as often as it occurs there, and the
      shown rows keep their table order, since merging them back with the
      hidden rows along the selection rebuilds the table. */
  function FilterByCommission(records: seq<Record>, selected: seq<string>): (r: seq<Record>)
    ensures |selected| == 0 ==> r == records
    ensures multiset(r) + multiset(Reject(records, Shown(selected))) == multiset(records)
    ensures Merge(Flags(records, Shown(selected)), r, Reject(records, Shown(selected))) == records
  {
    FilterAll(records, Shown(selected));
    FilterRejectMultiset(records, Shown(selected));
    MergeFilterReject(records, Shown(selected));
    Filter(records, Shown(selected))
  }

  /** A unit whose eligible voters are known and positive and whose remaining
      count is known gets a full table row. */
  predicate IsComplete(r: Record) {
    var f := r.row.unit.fields;
    f.total.Some? && f.total.value > 0 && f.remaining.Some?
  }

  function Complete(records: seq<Record>): seq<Record> { Filter(records, IsComplete) }

  function Incomplete(records: seq<Record>): seq<Record> { Reject(records, IsComplete) }

  /** With any selection, a shown row is a row of a selected commission, and
      every row of a selected commission is shown. */
  lemma FilterByCommissionMembers(records: seq<Record>, selected: seq<string>, x: Record)
    ensures x in FilterByCommission(records, selected) <==>
            x in records && (|selected| == 0 || CommissionOf(x) in selected)
  {
    FilterMembers(records, Shown(selected), x);
  }

  /** The complete and the incomplete rows split the shown rows: each row
      lands on exactly one side according to `IsComplete`, each side keeps the
      table order, and interleaving them back along `IsComplete` gives the
      shown rows again. */
  lemma PartitionSpec(records: seq<Record>)
    ensures forall x :: x in Complete(records) ==> IsComplete(x)
    ensures forall x :: x in Incomplete(records) ==> !IsComplete(x)
    ensures multiset(Complete(records)) + multiset(Incomplete(records)) == multiset(records)
    ensures Merge(Flags(records, IsComplete), Complete(records), Incomplete(records)) == records
  {
    FilterRejectMultiset(records, IsComplete);
    MergeFilterReject(records, IsComplete);
  }

  /** Rows numbered in increasing order stay so after the filter and the
      partition, so sorting the complete rows by serial number changes nothing. */
  lemma PartitionKeepsSerialOrder(records: seq<Record>, selected: seq<string>)
    requires IncreasingBy(records, SerialOf)
    ensures IncreasingBy(Complete(FilterByCommission(records, selected)), SerialOf)
  {
    FilterKeepsOrder(records, Shown(selected), SerialOf);
    FilterKeepsOrder(FilterByCommission(records, selected), IsComplete, SerialOf);
  }

  // ---------------------------------------------------------------------------
  // Row colour and the countable note

  datatype RowClass = Success | Warning | Plain

  /** A unit with no voters left to reach quorum is a success; one with
      voters left but at most a fifth of its voters so far is a warning. */
  function Classify(remaining: Option<int>, voted: Option<int>): RowClass {
    if remaining.None? then Plain
    else if remaining.value <= 0 then Success
    else if voted.Some? && voted.value > 0 && 5 * remaining.value <= voted.value then Warning
    else Plain
  }

  const CountableNote := "(개표 가능)"

  /** The export note of a unit. */
  function Note(remaining: Option<int>): string {
    if remaining.Some? && remaining.value <= 0 then CountableNote else ""
  }

  /** The three colours in terms of the two counts, and the note exactly on
      the success rows. */
  lemma ClassifySpec(remaining: Option<int>, voted: Option<int>)
    ensures Classify(remaining, voted) == Success <==> remaining.Some? && remaining.value <= 0
    ensures Classify(remaining, voted) == Warning <==>
              remaining.Some? && remaining.value > 0 && voted.Some? && voted.value > 0 &&
              5 * remaining.value <= voted.value
    ensures Note(remaining) == CountableNote <==> Classify(remaining, voted) == Success
    ensures Note(remaining) == "" <==> Classify(remaining, voted) != Success
  {
  }

  // ---------------------------------------------------------------------------
  // Name suffixes

  const CouncilWord := "학생회"

  /** Words that spare a name the suffix in the spreadsheet export. */
  const ExportKeepWords := ["동아리연합회", "투표", "위원회", "연합회장"]

  /** Words that spare a name the suffix in the notice text. */
  const NoticeKeepWords := ["학생회", "위원회", "투표", "동아리연합회", "연합회장"]

  /** Python's `any(w in s for w in ws)`. */
  predicate ContainsAny(s: string, ws: seq<string>) {
    |ws| > 0 && (Contains(s, ws[0]) || ContainsAny(s, ws[1..]))
  }

  lemma {:induction false} ContainsAnyAt(s: string, ws: seq<string>, k: nat)
    requires k < |ws| && Contains(s, ws[k])
    ensures ContainsAny(s, ws)
  {
    if k > 0 {
      ContainsAnyAt(s, ws[1..], k - 1);
    }
  }

  lemma {:induction false} ContainsAnyWitness(s: string, ws: seq<string>) returns (k: nat)
    requires ContainsAny(s, ws)
    ensures k < |ws| && Contains(s, ws[k])
  {
    if Contains(s, ws[0]) {
      k := 0;
    } else {
      var j := ContainsAnyWitness(s, ws[1..]);
      k := j + 1;
    }
  }

  /** The unit name in the spreadsheet export. */
  function ExportName(name: string): string {
    if EndsWith(name, CouncilWord) || ContainsAny(name, ExportKeepWords) then name
    else name + " " + CouncilWord
  }

  /** The unit name in the notice text. */
  function NoticeName(name: string): string {
    if ContainsAny(name, NoticeKeepWords) then name else name + " " + CouncilWord
  }

  lemma EndsWithSuffix(name: string, w: string)
    ensures EndsWith(name + " " + w, w)
  {
    var s := name + " " + w;
    assert s[|s| - |w|..] == w;
  }

  lemma ContainsSuffix(name: string, w: string)
    ensures Contains(name + " " + w, w)
  {
    var s := name + " " + w;
    assert OccursAt(s, w, |name| + 1) by {
      assert s[|name| + 1..|name| + 1 + |w|] == w;
    }
    ContainsIffOccurs(s, w);
  }

  lemma EndsWithContains(s: string, w: string)
    requires EndsWith(s, w)
    ensures Contains(s, w)
  {
    assert OccursAt(s, w, |s| - |w|);
    ContainsIffOccurs(s, w);
  }

  /** The export name is the name itself or the name with the council suffix,
      and adding the suffix once is enough. */
  lemma ExportNameSpec(name: string)
    ensures ExportName(name) == name || ExportName(name) == name + " " + CouncilWord
    ensures ExportName(name) == name <==> EndsWith(name, CouncilWord) || ContainsAny(name, ExportKeepWords)
    ensures ExportName(ExportName(name)) == ExportName(name)
  {
    EndsWithSuffix(name, CouncilWord);
    if ExportName(name) != name {
      assert |ExportName(name)| > |name|;
    }
  }

  /** The notice name is the name itself or the name with the council suffix,
      and adding the suffix once is enough. */
  lemma NoticeNameSpec(name: string)
    ensures NoticeName(name) == name || NoticeName(name) == name + " " + CouncilWord
    ensures NoticeName(name) == name <==> ContainsAny(name, NoticeKeepWords)
    ensures NoticeName(NoticeName(name)) == NoticeName(name)
  {
    ContainsSuffix(name, CouncilWord);
    ContainsAnyAt(name + " " + CouncilWord, NoticeKeepWords, 0);
    if NoticeName(name) != name {
      assert |NoticeName(name)| > |name|;
    }
  }

  /** Every word that spares a name in the export spares it in the notice. */
  lemma ExportWordsInNotice(k: nat)
    requires k < |ExportKeepWords|
    ensures exists m :: 0 <= m < |NoticeKeepWords| && NoticeKeepWords[m] == ExportKeepWords[k]
  {
    if k == 0 { assert NoticeKeepWords[3] == ExportKeepWords[0]; }
    else if k == 1 { assert NoticeKeepWords[2] == ExportKeepWords[1]; }
    else if k == 2 { assert NoticeKeepWords[1] == ExportKeepWords[2]; }
    else { assert NoticeKeepWords[4] == ExportKeepWords[3]; }
  }

  /** A name the export leaves alone is left alone in the notice too. */
  lemma ExportKeptNoticeKept(name: string)
    requires ExportName(name) == name
    ensures NoticeName(name) == name
  {
    ExportNameSpec(name);
    if EndsWith(name, CouncilWord) {
      EndsWithContains(name, CouncilWord);
      ContainsAnyAt(name, NoticeKeepWords, 0);
    } else {
      var k := ContainsAnyWitness(name, ExportKeepWords);
      ExportWordsInNotice(k);
      var m :| 0 <= m < |NoticeKeepWords| && NoticeKeepWords[m] == ExportKeepWords[k];
      ContainsAnyAt(name, NoticeKeepWords, m);
    }
  }

  lemma {:induction false} ContainsNone(s: string, ws: seq<string>)
    requires forall k :: 0 <= k < |ws| ==> !Contains(s, ws[k])
    ensures !ContainsAny(s, ws)
  {
    if |ws| > 0 {
      ContainsNone(s, ws[1..]);
    }
  }

  /** The converse fails: a president's title such as `학생회장` keeps its
      name in the notice but gets the suffix in the export. */
  lemma ExportAddsWhereNoticeKeeps(name: string)
    requires name == CouncilWord + "장"
    ensures ExportName(name) == name + " " + CouncilWord
    ensures NoticeName(name) == name
  {
    assert name[|name| - 1] == '장';
    assert !EndsWith(name, CouncilWord) by {
      if |CouncilWord| <= |name| { assert name[|name| - |CouncilWord|..][2] == '장'; }
    }
    assert '동' !in name && '투' !in name && '위' !in name && '연' !in name;
    MissingCharNotContained(name, ExportKeepWords[0], '동');
    MissingCharNotContained(name, ExportKeepWords[1], '투');
    MissingCharNotContained(name, ExportKeepWords[2], '위');
    MissingCharNotContained(name, ExportKeepWords[3], '연');
    ContainsNone(name, ExportKeepWords);
    assert StartsWith(name, CouncilWord);
    ContainsAnyAt(name, NoticeKeepWords, 0);
  }

  // ---------------------------------------------------------------------------
  // Groups of the notice text

  /** The distinct values of `xs` in order of first appearance. */
  function Unique(xs: seq<string>): (r: seq<string>)
    ensures Distinct(r)
    ensures forall x :: x in r <==> x in xs
    ensures forall i, j :: 0 <= i < j < |r| ==> IndexIn(xs, r[i]) < IndexIn(xs, r[j])
  {
    if |xs| == 0 then []
    else
      var init, last := xs[..|xs| - 1], xs[|xs| - 1];
      var u := Unique(init);
      var r := if last in u then u else u + [last];
      UniqueStep(xs, init, last, u, r);
      r
  }

  /** The step of `Unique`: the last value is added when it is new. */
  lemma UniqueStep(xs: seq<string>, init: seq<string>, last: string, u: seq<string>, r: seq<string>)
    requires xs == init + [last]
    requires Distinct(u) && forall x :: x in u <==> x in init
    requires forall i, j :: 0 <= i < j < |u| ==> IndexIn(init, u[i]) < IndexIn(init, u[j])
    requires r == if last in u then u else u + [last]
    ensures Distinct(r)
    ensures forall x :: x in r <==> x in xs
    ensures forall i, j :: 0 <= i < j < |r| ==> IndexIn(xs, r[i]) < IndexIn(xs, r[j])
  {
    forall x | x in init ensures IndexIn(xs, x) == IndexIn(init, x) {
      IndexInExtended(init, last, x);
    }
    if last !in u {
      IndexInExtended(init, last, last);
      forall i | 0 <= i < |u| ensures IndexIn(xs, u[i]) < IndexIn(xs, last) {
        assert u[i] in init;
      }
    }
  }

  /** Appending an element moves no first position, and an element new to
      the sequence is first found at the end. */
  lemma IndexInExtended(xs: seq<string>, y: string, x: string)
    requires x in xs || x == y
    ensures IndexIn(xs + [y], x) == if x in xs then IndexIn(xs, x) else |xs|
  {
    var k, k' := IndexIn(xs, x), IndexIn(xs + [y], x);
    assert x in xs + [y];
    if x in xs {
      assert (xs + [y])[k] == x;
      assert k' < |xs| ==> (xs + [y])[k'] == xs[k'];
    }
  }

  /** The group order of the notice: the commissions found that `order`
      lists, in list order, then those it does not list, as found. */
  function GroupOrder(order: seq<string>, found: seq<string>): seq<string> {
    Filter(order, c => c in found) + Filter(found, c => c !in order)
  }

  /** `g` splits at `k` into the listed commissions found, in list order,
      followed by the unlisted ones, in the order they were found. */
  ghost predicate ListedThenUnlisted(g: seq<string>, order: seq<string>, found: seq<string>, k: nat) {
    && k <= |g|
    && (forall c :: c in g[..k] <==> c in found && c in order)
    && IncreasingBy(g[..k], c => IndexIn(order, c))
    && (forall c :: c in g[k..] <==> c in found && c !in order)
    && IncreasingBy(g[k..], c => IndexIn(found, c))
  }

  /** With distinct lists, the group order holds each commission found exactly
      once, the listed ones come first and in list order, and the unlisted
      ones follow in the order they were found. */
  lemma GroupOrderSpec(order: seq<string>, found: seq<string>)
    requires Distinct(order) && Distinct(found)
    ensures multiset(GroupOrder(order, found)) == multiset(found)
    ensures exists k :: ListedThenUnlisted(GroupOrder(order, found), order, found, k)
  {
    var inFound := c => c in found;
    var inOrder := c => c in order;
    var notInOrder := c => c !in order;
    var listed, unlisted := Filter(order, inFound), Filter(found, notInOrder);
    var g := GroupOrder(order, found);
    forall c ensures c in listed <==> c in found && c in order {
      FilterMembers(order, inFound, c);
    }
    forall c ensures c in unlisted <==> c in found && c !in order {
      FilterMembers(found, notInOrder, c);
    }
    FilterDistinct(order, inFound);
    FilterDistinct(found, inOrder);
    forall c ensures c in listed <==> c in Filter(found, inOrder) {
      FilterMembers(found, inOrder, c);
    }
    DistinctSameElements(listed, Filter(found, inOrder));
    FilterRejectMultiset(found, inOrder);
    RejectIsFilterNot(found, order);
    IndexInIncreasing(order);
    IndexInIncreasing(found);
    FilterKeepsOrder(order, inFound, c => IndexIn(order, c));
    FilterKeepsOrder(found, notInOrder, c => IndexIn(found, c));
    assert g[..|listed|] == listed && g[|listed|..] == unlisted;
    assert ListedThenUnlisted(g, order, found, |listed|);
  }

  lemma {:induction false} RejectIsFilterNot(found: seq<string>, order: seq<string>)
    ensures Reject(found, c => c in order) == Filter(found, c => c !in order)
  {
    if |found| > 0 {
      RejectIsFilterNot(found[1..], order);
    }
  }

  lemma IndexInIncreasing(order: seq<string>)
    requires Distinct(order)
    ensures IncreasingBy(order, c => IndexIn(order, c))
  {
    forall i | 0 <= i < |order| ensures IndexIn(order, order[i]) == i {
      var k := IndexIn(order, order[i]);
      assert order[k] == order[i];
    }
  }

  /** The place in the commission list told by the first one or two characters. */
  function HeadKey(c: string): int {
    if |c| < 2 then -1
    else match c[0]
      case '중' => 0  case '총' => 1  case '문' => 2  case '상' => 3  case '이' => 4
      case '공' => 5  case '인' => 6  case '신' => 7  case '사' => 8
      case '생' => if c[1] == '명' then 9 else 11
      case '음' => 10 case '교' => 12 case '체' => 13 case '의' => 14 case '치' => 15
      case '간' => 16 case '약' => 17 case '언' => 18 case '글' => 19
      case _ => -1
  }

  /** From position `n` on, `HeadKey` tells each commission's position. */
  predicate HeadsAt(cs: seq<string>, n: nat)
    decreases |cs| - n
  {
    n >= |cs| || (HeadKey(cs[n]) == n && HeadsAt(cs, n + 1))
  }

  lemma {:induction false} HeadsAtKeyed(cs: seq<string>, n: nat)
    requires HeadsAt(cs, n)
    ensures forall i :: n <= i < |cs| ==> HeadKey(cs[i]) == i
    decreases |cs| - n
  {
    if n < |cs| {
      HeadsAtKeyed(cs, n + 1);
    }
  }

  lemma CommissionHeadsLater()
    ensures HeadsAt(CommissionOrder, 10)
  {
    var co := CommissionOrder;
    assert |co| == 20;
    assert HeadsAt(co, 19);
    assert HeadsAt(co, 18);
    assert HeadsAt(co, 17);
    assert HeadsAt(co, 16);
    assert HeadsAt(co, 15);
    assert HeadsAt(co, 14);
    assert HeadsAt(co, 13);
    assert HeadsAt(co, 12);
    assert HeadsAt(co, 11);
    assert HeadsAt(co, 10);
  }

  /** The commission list names no commission twice. */
  lemma CommissionOrderDistinct()
    ensures Distinct(CommissionOrder)
  {
    var co := CommissionOrder;
    CommissionHeadsLater();
    assert HeadsAt(co, 9);
    assert HeadsAt(co, 8);
    assert HeadsAt(co, 7);
    assert HeadsAt(co, 6);
    assert HeadsAt(co, 5);
    assert HeadsAt(co, 4);
    assert HeadsAt(co, 3);
    assert HeadsAt(co, 2);
    assert HeadsAt(co, 1);
    assert HeadsAt(co, 0);
    HeadsAtKeyed(co, 0);
  }

  function Commissions(records: seq<Record>): (r: seq<string>)
    ensures |r| == |records|
    ensures forall i :: 0 <= i < |records| ==> r[i] == CommissionOf(records[i])
  {
    seq(|records|, i requires 0 <= i < |records| => CommissionOf(records[i]))
  }

  /** The rows of one commission, in table order. */
  function OfCommission(records: seq<Record>, c: string): seq<Record> {
    if |records| == 0 then []
    else (if CommissionOf(records[0]) == c then [records[0]] else []) + OfCommission(records[1..], c)
  }

  /** The rows of the commissions in `cs`, group after group. */
  function Flatten(records: seq<Record>, cs: seq<string>): seq<Record> {
    if |cs| == 0 then [] else OfCommission(records, cs[0]) + Flatten(records, cs[1..])
  }

  /** The rows whose commission is in `cs`, in table order. */
  function OfCommissions(records: seq<Record>, cs: set<string>): seq<Record> {
    if |records| == 0 then []
    else (if CommissionOf(records[0]) in cs then [records[0]] else []) + OfCommissions(records[1..], cs)
  }

  /** The commissions of the notice, in the order their groups appear. */
  function NoticeOrder(records: seq<Record>): seq<string> {
    GroupOrder(CommissionOrder, Unique(Commissions(records)))
  }

  /** The elements of `cs`. */
  function Elements(cs: seq<string>): (r: set<string>)
    ensures forall c :: c in r <==> c in cs
  {
    if |cs| == 0 then {}
    else
      assert cs == [cs[0]] + cs[1..];
      {cs[0]} + Elements(cs[1..])
  }

  lemma {:induction false} OfCommissionsAdd(records: seq<Record>, cs: set<string>, c: string)
    requires c !in cs
    ensures multiset(OfCommissions(records, cs + {c})) ==
            multiset(OfCommission(records, c)) + multiset(OfCommissions(records, cs))
  {
    if |records| > 0 {
      OfCommissionsAdd(records[1..], cs, c);
      OfCommissionsAddStep(records, cs, c);
    }
  }

  /** `OfCommissionsAdd` for a table, from the case of its tail. */
  lemma OfCommissionsAddStep(records: seq<Record>, cs: set<string>, c: string)
    requires |records| > 0 && c !in cs
    requires multiset(OfCommissions(records[1..], cs + {c})) ==
             multiset(OfCommission(records[1..], c)) + multiset(OfCommissions(records[1..], cs))
    ensures multiset(OfCommissions(records, cs + {c})) ==
            multiset(OfCommission(records, c)) + multiset(OfCommissions(records, cs))
  {
    var r, rest := records[0], records[1..];
    var k := CommissionOf(r);
    var h: seq<Record> := if k in cs + {c} then [r] else [];
    var hb: seq<Record> := if k == c then [r] else [];
    var hc: seq<Record> := if k in cs then [r] else [];
    assert multiset(h) == multiset(hb) + multiset(hc);
    assert OfCommissions(records, cs + {c}) == h + OfCommissions(rest, cs + {c});
    assert OfCommission(records, c) == hb + OfCommission(rest, c);
    assert OfCommissions(records, cs) == hc + OfCommissions(rest, cs);
    MultisetCombine(h, hb, hc, OfCommissions(rest, cs + {c}), OfCommission(rest, c), OfCommissions(rest, cs));
  }

  /** Two multiset splits, put side by side. */
  lemma MultisetCombine<T>(h: seq<T>, hb: seq<T>, hc: seq<T>, a: seq<T>, b: seq<T>, c: seq<T>)
    requires multiset(h) == multiset(hb) + multiset(hc)
    requires multiset(a) == multiset(b) + multiset(c)
    ensures multiset(h + a) == multiset(hb + b) + multiset(hc + c)
  {
  }

  lemma {:induction false} FlattenMultiset(records: seq<Record>, cs: seq<string>)
    requires Distinct(cs)
    ensures multiset(Flatten(records, cs)) == multiset(OfCommissions(records, Elements(cs)))
  {
    if |cs| > 0 {
      var rest := cs[1..];
      assert Distinct(rest) by {
        forall i, j | 0 <= i < j < |rest| ensures rest[i] != rest[j] {
          assert rest[i] == cs[i + 1] && rest[j] == cs[j + 1];
        }
      }
      FlattenMultiset(records, rest);
      assert cs[0] !in rest by {
        forall k | 0 <= k < |rest| ensures rest[k] != cs[0] {
          assert rest[k] == cs[k + 1];
        }
      }
      OfCommissionsAdd(records, Elements(rest), cs[0]);
      assert Elements(cs) == Elements(rest) + {cs[0]};
      assert Flatten(records, cs) == OfCommission(records, cs[0]) + Flatten(records, rest);
    } else {
      OfNoCommission(records);
    }
  }

  lemma {:induction false} OfNoCommission(records: seq<Record>)
    ensures OfCommissions(records, {}) == []
  {
    if |records| > 0 {
      OfNoCommission(records[1..]);
    }
  }

  lemma {:induction false} OfCommissionsAll(records: seq<Record>, cs: set<string>)
    requires forall k :: 0 <= k < |records| ==> CommissionOf(records[k]) in cs
    ensures OfCommissions(records, cs) == records
  {
    if |records| > 0 {
      OfCommissionsAll(records[1..], cs);
      assert records == [records[0]] + records[1..];
    }
  }

  /** Read group after group, the notice lists every complete row exactly
      once: the groups together are a rearrangement of the rows. */
  lemma NoticeGroupsCoverRows(records: seq<Record>)
    ensures multiset(Flatten(records, NoticeOrder(records))) == multiset(records)
  {
    CommissionOrderDistinct();
    GroupsCoverRows(records, CommissionOrder);
  }

  /** Grouping the rows along the group order of a distinct list rearranges them. */
  lemma GroupsCoverRows(records: seq<Record>, order: seq<string>)
    requires Distinct(order)
    ensures multiset(Flatten(records, GroupOrder(order, Unique(Commissions(records))))) == multiset(records)
  {
    var found := Unique(Commissions(records));
    var cs := GroupOrder(order, found);
    GroupOrderSpec(order, found);
    assert Distinct(cs) by {
      DistinctOfMultiset(cs, found);
    }
    FlattenMultiset(records, cs);
    forall k | 0 <= k < |records| ensures CommissionOf(records[k]) in Elements(cs) {
      assert Commissions(records)[k] in Commissions(records);
      assert CommissionOf(records[k]) in multiset(found);
    }
    OfCommissionsAll(records, Elements(cs));
  }

  /** A rearrangement of a sequence without repetitions has none either. */
  lemma DistinctOfMultiset(a: seq<string>, b: seq<string>)
    requires multiset(a) == multiset(b) && Distinct(b)
    ensures Distinct(a)
  {
    forall i, j | 0 <= i < j < |a| ensures a[i] != a[j] {
      DistinctCount(b, a[i]);
      if a[i] == a[j] {
        TwiceCounted(a, i, j);
      }
    }
  }

  lemma {:induction false} OfCommissionHolds(records: seq<Record>, c: string, k: nat)
    requires k < |records| && CommissionOf(records[k]) == c
    ensures |OfCommission(records, c)| > 0
  {
    if k > 0 && CommissionOf(records[0]) != c {
      OfCommissionHolds(records[1..], c, k - 1);
    }
  }

  /** Every commission of the group order was found. */
  lemma GroupOrderFromFound(order: seq<string>, found: seq<string>)
    ensures forall c :: c in GroupOrder(order, found) ==> c in found
  {
    forall c | c in GroupOrder(order, found) ensures c in found {
      FilterMembers(order, c => c in found, c);
      FilterMembers(found, c => c !in order, c);
    }
  }

  /** No notice group is empty: every commission in the notice order has a row. */
  lemma NoticeGroupsNonEmpty(records: seq<Record>)
    ensures forall i :: 0 <= i < |NoticeOrder(records)| ==> |OfCommission(records, NoticeOrder(records)[i])| > 0
  {
    GroupsNonEmpty(records, CommissionOrder, NoticeOrder(records));
  }

  /** Every commission of a group order built from the rows has a row. */
  lemma GroupsNonEmpty(records: seq<Record>, order: seq<string>, cs: seq<string>)
    requires cs == GroupOrder(order, Unique(Commissions(records)))
    ensures forall i :: 0 <= i < |cs| ==> |OfCommission(records, cs[i])| > 0
  {
    var found := Unique(Commissions(records));
    GroupOrderFromFound(order, found);
    forall i | 0 <= i < |cs| ensures |OfCommission(records, cs[i])| > 0 {
      assert cs[i] in cs;
      var k :| 0 <= k < |records| && Commissions(records)[k] == cs[i];
      OfCommissionHolds(records, cs[i], k);
    }
  }
}

=== FILE: wrappers.dfy ===
/** The optional value used for every field the scraped page may leave blank
    or that fails to parse: `None` plays the part of pandas' missing value. */
module Wrappers {

  datatype Option<+T> = None | Some(value: T)

  /** The value of `newer` when it is known, otherwise the value it would overwrite. */
  function Prefer<T>(newer: Option<T>, older: Option<T>): (r: Option<T>)
    ensures newer.Some? ==> r == newer
    ensures newer.None? ==> r == older
  {
    if newer.Some? then newer else older
  }

  /** The last known value of `xs`, or `None` when every entry is unknown. */
  function LastKnown<T>(xs: seq<Option<T>>): (r: Option<T>)
    ensures r.None? <==> forall i :: 0 <= i < |xs| ==> xs[i].None?
    ensures r.Some? ==> exists i :: 0 <= i < |xs| && xs[i] == r
                                    && forall j :: i < j < |xs| ==> xs[j].None?
  {
    if |xs| == 0 then None
    else if xs[|xs| - 1].Some? then xs[|xs| - 1]
    else
      var r := LastKnown(xs[..|xs| - 1]);
      UnknownLast(xs, r);
      r
  }

  /** An unknown last entry leaves the last known value of the others. */
  lemma UnknownLast<T>(xs: seq<Option<T>>, r: Option<T>)
    requires |xs| > 0 && xs[|xs| - 1].None?
    requires var init := xs[..|xs| - 1];
             && (r.None? <==> forall i :: 0 <= i < |init| ==> init[i].None?)
             && (r.Some? ==> exists i :: 0 <= i < |init| && init[i] == r
                                         && forall j :: i < j < |init| ==> init[j].None?)
    ensures r.None? <==> forall i :: 0 <= i < |xs| ==> xs[i].None?
    ensures r.Some? ==> exists i :: 0 <= i < |xs| && xs[i] == r
                                    && forall j :: i < j < |xs| ==> xs[j].None?
  {
    var init := xs[..|xs| - 1];
    assert forall i :: 0 <= i < |init| ==> init[i] == xs[i];
    if r.Some? {
      var i :| 0 <= i < |init| && init[i] == r && forall j :: i < j < |init| ==> init[j].None?;
      assert xs[i] == r && forall j :: i < j < |xs| ==> xs[j].None?;
    }
  }
}
